=== FILE: README.md ===
# Hurricane notification pipeline — verified model of its decision logic

This project models the parts of the hurricane notification pipeline that decide
things. The network, storage and notification services are left out.

- **The bulletin analyser**: the `lambda_handler` of `hurricane-notification-function-lambda.py`
  together with `analyze_sentence`, the text part of `get_relevant_excerpt`, the summary text of
  `update_summary_json` and the arrival value of `update_hurricane_arrival`.
  - It cuts the special-features section out of the tropical weather discussion.
  - It looks for Puerto Rico, then Florida, in that section.
  - For each location it estimates, from the first sentence that names the location and a
    weekday, the days until arrival.
  - It produces the notifications, the arrival records, the summary message and the response
    of one run.
- **The subscriber registry**: the registration and unsubscribe handlers under `lambda/`. They
  are modelled as operations on a users table and on the subscriptions of each notification
  topic.

Files and modules:

| file | module | what it holds |
|---|---|---|
| `Wrappers.dfy` | `Wrappers` | `Option`, `Result` |
| `Text.dfy` | `Text` | Python string built-ins the code uses, with their properties: `index` / `in`, `split`, `join`, `strip`, `lower`, `replace(' ', '')`, the digit filter, `str(n)` |
| `DayEstimator.dfy` | `DayEstimator` | `analyze_sentence`: the method `AnalyzeSentence` and its specification `Estimate` |
| `BulletinAnalyzer.dfy` | `BulletinAnalyzer` | the analyser handler; see below |
| `Subscribers.dfy` | `Subscribers` | the users table, subscriptions, responses, contact classification |
| `Registration.dfy` | `Registration` | the registration handler as the function `Register` on a `Store` |
| `Unsubscription.dfy` | `Unsubscription` | the unsubscribe handler as the function `Unsubscribe` on a `Store` |
| `Registry.dfy` | `Registry` | class `Registry`, plus the properties of the two handlers taken together; see below |

The analyser handler in `BulletinAnalyzer.dfy`:
- The method `LambdaHandler` has the location loop of `lambda_handler`. Its sentence loop with
  `break` lives in the method `ProcessLocation`.
- `LambdaHandler` is proved equal to the function `Run`, and `ProcessLocation` to the function
  `LocationEffects`.
- Today's weekday is a parameter. So is the text of the error, if any, that publishing to each
  topic raises.
- The response body is one of the handler's four answers, the datatype `Body`. `BodyText` gives
  each answer's exact text, and `BodyTextsDiffer` shows that no two answers share a text.

The class `Registry` in `Registry.dfy`:
- It holds the table and the topics as fields.
- Its `Register` and `Unsubscribe` methods update them in place.
- Each method is proved to leave the state and return the response that the corresponding
  specification function gives.

Behaviour of the code worth knowing:
- **End marker before start marker.** If the end marker comes before the start marker, the
  slice is empty. No error is raised. Both locations then get the "No current threat" record,
  and the answer is the nothing-to-notify 200 (`RunEndBeforeStart`).
- **Missing marker.** If a marker is missing, no arrival record is written at all, and the
  summary is the "no hurricane" message (`RunWithoutSection`).
- **Sentence loop.** The loop does not stop at the first sentence that names the location. It
  passes over sentences without a weekday, and takes the first sentence that names both the
  location and a weekday (`FirstEstimateAt`).
- **Named but undated location.** A location the section names, but with no dated sentence,
  gets no arrival record at all (`LocationUndated`).
- **Excerpt.** The excerpt sent with a notification comes from the first sentence that names the
  location. That need not be the sentence the estimate came from (`LocationNotified`).
- **Summary text.** The "no hurricane" summary has no closing period.
- **Missing topic on registration.** A subscribe to a topic that does not exist raises the
  service's NotFound error. The registration then answers 500 but keeps the stored record
  (`RegisterNewContact`).

## Model

| member | source | states |
|---|---|---|
| Text.IndexOf | hurricane-notification-function-lambda.py:38-39 | `str.index`: the result is the first position where the pattern occurs. It is None exactly when the pattern occurs nowhere, which is where `index` raises ValueError |
| Text.Contains | hurricane-notification-function-lambda.py:50 | Python's `in` on two strings (also lines 53, 96 and 127): the pattern occurs somewhere, which is where `index` finds it |
| Text.Split | hurricane-notification-function-lambda.py:51 | `split` always yields at least one piece |
| Text.SplitPiecesLackSeparator | hurricane-notification-function-lambda.py:51 | no piece of a split holds the separator |
| Text.JoinSplit | hurricane-notification-function-lambda.py:51 | joining the pieces with the separator gives the text back |
| Text.SplitJoin | hurricane-notification-function-lambda.py:196 | splitting lines joined by "\n" gives the lines back, when no line holds a line break |
| Text.ContainedInSomePiece | hurricane-notification-function-lambda.py:50-53 | a word without the separator that occurs in a text occurs in one of the pieces the text splits into |
| Text.OccursInSlice | hurricane-notification-function-lambda.py:38-40 | an occurrence inside a slice is an occurrence in the whole text, shifted by the slice's start |
| Text.ContainedInFirstPiece | hurricane-notification-function-lambda.py:50-53 | a word without the separator at the start of a text lies in the first piece of its split |
| Text.ContainedInLaterPiece | hurricane-notification-function-lambda.py:50-53 | a word in a piece of the split of a text's tail lies in a piece of the split of the whole text |
| Text.Slice | hurricane-notification-function-lambda.py:40 | Python's `content[start:end]`, empty when `end` is not after `start` |
| Text.Join | hurricane-notification-function-lambda.py:196 | `sep.join(parts)`; `JoinSplit` and `SplitJoin` pair it with `Split` |
| Text.Strip | hurricane-notification-function-lambda.py:128 | `strip()`: `TrimStart` then `TrimEnd` |
| Text.StripKeepsAbsent | hurricane-notification-function-lambda.py:128 | stripping only removes characters, so a character missing from the text is missing after `strip()` |
| Text.SliceKeepsAbsent | hurricane-notification-function-lambda.py:128 | a slice of a text holds no character the text lacks |
| Text.IsSpace | hurricane-notification-function-lambda.py:128 | the ASCII whitespace `strip()` removes: tab to carriage return, the four separators 0x1C-0x1F, and the space |
| Text.Lower | hurricane-notification-function-lambda.py:96 | ASCII `lower()`; `LowerAt` characterises it |
| Text.TrimStart | hurricane-notification-function-lambda.py:128 | `strip`, left side: the result is a suffix; only whitespace is removed; the result does not start with whitespace |
| Text.TrimEnd | hurricane-notification-function-lambda.py:128 | `strip`, right side: the result is a prefix; only whitespace is removed; the result does not end with whitespace |
| Text.LowerAt | hurricane-notification-function-lambda.py:96 | `lower` keeps the length and maps each character on its own |
| Text.Without | lambda/user-registration-function-lambda.py:52 | `replace(' ', '')` leaves no space and never lengthens the text |
| Text.WithoutConcat | lambda/user-registration-function-lambda.py:52 | removing spaces works piece by piece |
| Text.WithoutAbsent | lambda/user-registration-function-lambda.py:52 | a text without spaces is kept as it is |
| Text.DigitsOnly | lambda/unsubscribe-lambda-function.py:65-66 | `''.join(filter(str.isdigit, s))` keeps only digits and never lengthens the text |
| Text.DigitsOnlyConcat | lambda/unsubscribe-lambda-function.py:65-66 | the digit filter works piece by piece |
| Text.DigitsOnlyOfDigits | lambda/unsubscribe-lambda-function.py:65-66 | a text of digits passes the filter unchanged |
| Text.DigitsOnlyDropsNonDigit | lambda/unsubscribe-lambda-function.py:64-66 | a non-digit character is dropped by the filter wherever it stands |
| Text.DigitsOnlyKeepsDigit | lambda/unsubscribe-lambda-function.py:64-66 | a digit is kept by the filter, in its place |
| Text.IsDigit | lambda/unsubscribe-lambda-function.py:65-66 | ASCII `str.isdigit` |
| Text.DecimalString | hurricane-notification-function-lambda.py:58 | `str(days)` is a non-empty run of digits without a leading zero |
| Text.DecimalRoundTrip | hurricane-notification-function-lambda.py:58 | the rendered days read back as the same number |
| DayEstimator.Mentions | hurricane-notification-function-lambda.py:96 | `day in sentence.lower()` for one weekday name; its partner is `MentionedFrom` |
| DayEstimator.DaysUntil | hurricane-notification-function-lambda.py:101-103 | the `diff` of one weekday, moved into the next week when it is not after today; `DaysUntilLandsOnDay` characterises it |
| DayEstimator.Offsets | hurricane-notification-function-lambda.py:99-104 | `days_until`: one offset per mentioned weekday, in order |
| DayEstimator.Estimate | hurricane-notification-function-lambda.py:93-106 | the value of `analyze_sentence`; `EstimateIsSoonestMentioned` characterises it and `AnalyzeSentence` computes it |
| DayEstimator.MentionedFrom | hurricane-notification-function-lambda.py:94-96 | weekday `x` is in `mentioned_days` exactly when its name occurs in the lower-cased sentence |
| DayEstimator.DaysUntilLandsOnDay | hurricane-notification-function-lambda.py:100-104 | each offset is between 1 and 7. It lands on the named weekday, it is the first day after today that does, and it is 7 (never 0) exactly for today's own name |
| DayEstimator.Min | hurricane-notification-function-lambda.py:105 | `min` returns an element of the list that is no greater than any element |
| DayEstimator.DaysUntilEach | hurricane-notification-function-lambda.py:99-104 | the loop that builds `days_until` gives the offsets of the mentioned weekdays, in order |
| DayEstimator.MinOffsetIsSoonest | hurricane-notification-function-lambda.py:99-105 | the least offset over a non-empty list of weekdays is the offset of one of them, no greater than any of theirs, and between 1 and 7 |
| DayEstimator.AnalyzeSentence | hurricane-notification-function-lambda.py:93-106 | the loop that builds `days_until` and takes its minimum returns the estimate `Estimate` |
| DayEstimator.EstimateIsSoonestMentioned | hurricane-notification-function-lambda.py:94-106 | the result is None exactly when no weekday name occurs. Otherwise it is the offset of a named weekday, between 1 and 7, and no greater than the offset of any named weekday |
| DayEstimator.EstimateOneDay | hurricane-notification-function-lambda.py:99-105 | a sentence naming one weekday gives that weekday's offset |
| DayEstimator.EstimateTodayIsAWeek | hurricane-notification-function-lambda.py:101-103 | a sentence naming only today's weekday gives 7 |
| DayEstimator.EstimateTwoDays | hurricane-notification-function-lambda.py:99-105 | a sentence naming two weekdays gives the smaller of their two offsets |
| BulletinAnalyzer.SectionBetween | hurricane-notification-function-lambda.py:38-40 | the slice between the two `index` results, or None where one `index` raises; `SectionBetweenMarkers` characterises it |
| BulletinAnalyzer.ExtractSection | hurricane-notification-function-lambda.py:37-40 | the special-features section, cut between the handler's two markers |
| BulletinAnalyzer.ArrivalValueOf | hurricane-notification-function-lambda.py:181 | the `days_to_arrival` value: the days, or "No current threat" for None |
| BulletinAnalyzer.WarningText | hurricane-notification-function-lambda.py:56 | the warning handed to `send_notification` |
| BulletinAnalyzer.NotificationMessage | hurricane-notification-function-lambda.py:113 | `full_message`: the warning, a blank line, the excerpt header and the excerpt |
| BulletinAnalyzer.SummaryLine | hurricane-notification-function-lambda.py:58 | one summary entry; `SummaryLineOneLine` shows it is one line |
| BulletinAnalyzer.IntToString | hurricane-notification-function-lambda.py:56-58 | `{days}` in the two f-strings: the decimal digits, after a '-' for a negative number |
| BulletinAnalyzer.SummaryMessage | hurricane-notification-function-lambda.py:195-198 | the summary text: the lines joined by "\n", or the "no hurricane" message for none; `SummaryMessageLines` gives the lines back |
| BulletinAnalyzer.ErrorBody | hurricane-notification-function-lambda.py:86-91 | the body of the 500 answer around the exception text |
| BulletinAnalyzer.BodyText | hurricane-notification-function-lambda.py:68-91 | the text of each of the four answers: notified, nothing to notify, no section, and the error body |
| BulletinAnalyzer.BodyTextsDiffer | hurricane-notification-function-lambda.py:68-91 | different answers have different texts, so the text tells which answer the handler gave |
| BulletinAnalyzer.ErrorBodyDetermined | hurricane-notification-function-lambda.py:90 | the exception text can be read back from the 500 body |
| BulletinAnalyzer.BodyTextCloses | hurricane-notification-function-lambda.py:71-90 | the tenth character from the end tells the error text from the success texts: 'y' (of "fully updated.") in the error text, 'N' (of "JSON updated.") in each success text |
| BulletinAnalyzer.SectionBetweenMarkers | hurricane-notification-function-lambda.py:37-40 | a section exists exactly when both markers occur. It is empty when the end marker comes first, never holds the end marker, and starts with the start marker when it is long enough |
| BulletinAnalyzer.SliceLacksEnd | hurricane-notification-function-lambda.py:39-40 | a slice that stops at the first occurrence of the end marker never holds that marker |
| BulletinAnalyzer.SliceOpensWithStart | hurricane-notification-function-lambda.py:38-40 | a slice from the first occurrence of the start marker opens with it, when it is long enough |
| BulletinAnalyzer.RunWithoutSection | hurricane-notification-function-lambda.py:79-85 | without both markers the run publishes nothing, writes no record, writes the "no hurricane" summary, and answers 200 with the no-special-features body. No other bulletin gets that answer |
| BulletinAnalyzer.RunEndBeforeStart | hurricane-notification-function-lambda.py:38-63 | an end marker before the start marker gives an empty section. Then both locations get the sentinel record, nothing is published, and the answer is the nothing-to-notify 200 |
| BulletinAnalyzer.FirstMention | hurricane-notification-function-lambda.py:125-128 | the first sentence that contains the location; `FirstMentionIsFirst` characterises it |
| BulletinAnalyzer.Excerpt | hurricane-notification-function-lambda.py:124-129 | the value of `get_relevant_excerpt`: the stripped first sentence naming the location, or "No specific details found."; `GetRelevantExcerpt` computes it |
| BulletinAnalyzer.FirstMentionAt | hurricane-notification-function-lambda.py:125-128 | when sentence `j` is the first to name the location, the excerpt is cut from sentence `j` |
| BulletinAnalyzer.FirstMentionIsFirst | hurricane-notification-function-lambda.py:125-129 | the excerpt sentence is the first piece that names the location. There is none exactly when no piece names it |
| BulletinAnalyzer.ExcerptFoundWhenMentioned | hurricane-notification-function-lambda.py:125-129 | a location without a period that the section names always has an excerpt. It is the stripped first sentence naming it, and so never "No specific details found." (that text ends in a period, which no stripped sentence holds) |
| BulletinAnalyzer.GetRelevantExcerpt | hurricane-notification-function-lambda.py:124-129 | the loop with its early return gives the specification `Excerpt` |
| BulletinAnalyzer.FirstEstimate | hurricane-notification-function-lambda.py:51-60 | the days the sentence loop settles on; `FirstEstimateAt`, `FirstEstimateNone` and `FirstEstimateInRange` characterise it |
| BulletinAnalyzer.Dated | hurricane-notification-function-lambda.py:53-55 | the sentence names the location and `analyze_sentence` gives it a value |
| BulletinAnalyzer.FirstEstimateAt | hurricane-notification-function-lambda.py:51-60 | the sentence loop settles on the estimate of the first sentence that names the location and a weekday, whatever undated sentences come before it |
| BulletinAnalyzer.FirstEstimateNone | hurricane-notification-function-lambda.py:51-60 | the sentence loop settles on nothing exactly when no sentence names both the location and a weekday |
| BulletinAnalyzer.FirstEstimateInRange | hurricane-notification-function-lambda.py:51-60 | a settled estimate is between 1 and 7 |
| BulletinAnalyzer.LocationEffects | hurricane-notification-function-lambda.py:50-63 | one pass of the location loop; the four `Location…` lemmas below cover its cases |
| BulletinAnalyzer.ScanLocations | hurricane-notification-function-lambda.py:49-63 | the location loop, which stops at the first publish that raises; `ScanConcat`, `ScanCounts` and `ScanErrorIff` state its properties |
| BulletinAnalyzer.Run | hurricane-notification-function-lambda.py:37-91 | what one run of the handler does; `RunResponse`, `RunFailsOnPublishError`, `RunErrorBody`, `RunWithoutSection`, `RunEndBeforeStart` and `RunSummaryRecoversLines` state its properties, and `LambdaHandler` computes it |
| BulletinAnalyzer.LocationAbsent | hurricane-notification-function-lambda.py:61-63 | a location the section does not name gets exactly one record, with "No current threat", and nothing else |
| BulletinAnalyzer.LocationUndated | hurricane-notification-function-lambda.py:50-60 | a named location with no dated sentence gets no notification, no record and no summary line |
| BulletinAnalyzer.LocationPublishFails | hurricane-notification-function-lambda.py:55-57 | a publish that raises ends the location with that error, before its record and summary line |
| BulletinAnalyzer.LocationNotified | hurricane-notification-function-lambda.py:50-60 | let sentence `i` be the first to name the location and a weekday, and sentence `j` the first to name the location. A location whose publish goes through then gets one notification, one record and one summary line. All three carry the estimate of sentence `i`, between 1 and 7. The excerpt is sentence `j`, which comes no later than `i` and may differ from it |
| BulletinAnalyzer.ScanConcat | hurricane-notification-function-lambda.py:49 | running the location loop over two lists in turn is running it over their concatenation, when the first list ends without an error |
| BulletinAnalyzer.ScanCounts | hurricane-notification-function-lambda.py:49-63 | one summary line per notification, and at most one notification and one record per location |
| BulletinAnalyzer.ScanTrackedInOrder | hurricane-notification-function-lambda.py:42-49 | Puerto Rico is handled before Florida. A publish error for Puerto Rico ends the run before Florida is looked at |
| BulletinAnalyzer.PublishRaises | hurricane-notification-function-lambda.py:50-56 | the location is named, has a dated sentence, and the publish to its topic raises |
| BulletinAnalyzer.LocationErrorIff | hurricane-notification-function-lambda.py:50-57 | one location ends the run with an error exactly when its publish raises, and the error is that publish's |
| BulletinAnalyzer.ScanErrorIff | hurricane-notification-function-lambda.py:49-63 | the location loop ends with an error exactly when the publish of some location raises, and the error is such a location's |
| BulletinAnalyzer.RunFailsOnPublishError | hurricane-notification-function-lambda.py:86-91 | the run answers 500 exactly when the bulletin has a section and the publish of a tracked location raises |
| BulletinAnalyzer.ScanErrorBody | hurricane-notification-function-lambda.py:49-57 | when the location loop ends with an error, it is the error given for the topic of one of the locations |
| BulletinAnalyzer.RunErrorBody | hurricane-notification-function-lambda.py:86-91 | a 500 answer is the error body around the error that the publish of a tracked location raised |
| BulletinAnalyzer.RunResponse | hurricane-notification-function-lambda.py:65-91 | the answer is 200 or 500. The summary is written exactly on 200. The notified body comes back exactly when a notification went out. There are at most two notifications and two records |
| BulletinAnalyzer.SummaryLineOneLine | hurricane-notification-function-lambda.py:58 | a summary line has no line break when the location name has none |
| BulletinAnalyzer.SummaryMessageLines | hurricane-notification-function-lambda.py:195-198 | when no line holds a line break (`SingleLines`), a non-empty summary message splits on "\n" back into its lines |
| BulletinAnalyzer.ScanLinesOneLine | hurricane-notification-function-lambda.py:49-63 | no summary line of the loop holds a line break when no location name does |
| BulletinAnalyzer.LocationLinesOneLine | hurricane-notification-function-lambda.py:58 | the summary lines of one location hold no line break when its name has none |
| BulletinAnalyzer.RunSummaryRecoversLines | hurricane-notification-function-lambda.py:195-198 | after notifying, the written summary splits back into the summary lines of the run, in location order |
| BulletinAnalyzer.ProcessLocation | hurricane-notification-function-lambda.py:50-63 | one pass of the location loop, with its sentence loop and `break`, has the effects `LocationEffects` |
| BulletinAnalyzer.LambdaHandler | hurricane-notification-function-lambda.py:37-91 | the handler, from the section cut to the response, produces exactly the outcome `Run` |
| Registration.RequestFields | lambda/user-registration-function-lambda.py:15-22 | the body the handler reads: the decoded `body` text, the `body` object, or the whole event, and a 400 for text that does not decode |
| Registration.TopicName | lambda/user-registration-function-lambda.py:52 | `f"{location.replace(' ', '')}-topic"`; its shape is given by the three lemmas below |
| Registration.Protocol | lambda/user-registration-function-lambda.py:62 | 'email' for an email contact, 'sms' otherwise |
| Registration.SubscribeErrorMessage | lambda/user-registration-function-lambda.py:68 | the 500 message around the subscribe error |
| Registration.Subscribed | lambda/user-registration-function-lambda.py:59-64 | a topic's subscriptions after a subscribe that goes through; `SubscribedKeeps` states its properties |
| Registration.Register | lambda/user-registration-function-lambda.py:10-80 | the registration handler on a store; the `Register…` lemmas below cover each of its outcomes |
| Registration.TopicNameShape | lambda/user-registration-function-lambda.py:52 | a topic name holds no space and ends in "-topic" |
| Registration.TopicNameOfSpaceless | lambda/user-registration-function-lambda.py:52 | case is kept: a location without spaces gives the location followed by "-topic" |
| Registration.TopicNameOfTwoWords | lambda/user-registration-function-lambda.py:52 | a two-word location loses only the space between its words |
| Registration.SubscribedKeeps | lambda/user-registration-function-lambda.py:59-64 | after a subscribe the topic holds the subscription and every earlier subscription, in order, and grows by at most one |
| Registration.RegisterInvalidJson | lambda/user-registration-function-lambda.py:15-17 | a body text that does not decode is answered 400 and changes nothing |
| Registration.RegisterMissingFields | lambda/user-registration-function-lambda.py:26-27 | a body without `contact` or `location` is answered 400 with "Missing required fields: contact and location", and nothing is stored or subscribed |
| Registration.RegisterDuplicate | lambda/user-registration-function-lambda.py:35-39 | a contact already in the table is answered 400 "User already registered", and nothing changes |
| Registration.RegisterNewContact | lambda/user-registration-function-lambda.py:29-70 | a new contact is stored with its location. Its type is email exactly when it holds '@', and no other record changes. A subscribe that raises, or a topic that does not exist, gives 500 with the record kept and the topics unchanged. Otherwise the answer is 200. The topic then gains the contact's subscription with the protocol of its type, after its earlier subscriptions. It grows by one exactly when the subscription was not there yet, and gains nothing else. No other topic changes |
| Registration.RegisterAgainRefused | lambda/user-registration-function-lambda.py:36-48 | once a registration has stored the contact, with its subscribe failed or not, registering that contact again is refused as a duplicate and changes nothing |
| Subscribers.ContactTypeOf | lambda/unsubscribe-lambda-function.py:37 | email exactly when the contact holds '@' (also line 31 of the registration handler) |
| Unsubscription.MissingFieldMessage | lambda/unsubscribe-lambda-function.py:82-84 | the 400 message of a KeyError, which quotes the missing key |
| Unsubscription.UnknownLocationMessage | lambda/unsubscribe-lambda-function.py:47 | the 400 message naming the lower-cased location |
| Unsubscription.LocationTopic | lambda/unsubscribe-lambda-function.py:41-47 | the topic of "puerto rico" and of "florida", and None for any other lower-cased location |
| Unsubscription.Matches | lambda/unsubscribe-lambda-function.py:59-67 | the test of the subscription loop: same protocol and endpoint for email, protocol 'sms' and equal digits for phone |
| Unsubscription.RemoveAt | lambda/unsubscribe-lambda-function.py:60 | the list without the unsubscribed element |
| Unsubscription.WithoutFirstMatch | lambda/unsubscribe-lambda-function.py:58-72 | the subscriptions after the loop; `WithoutFirstMatchRemovesOne` characterises it |
| Unsubscription.Unsubscribe | lambda/unsubscribe-lambda-function.py:16-93 | the unsubscribe handler on a store; the `Unsubscribe…` lemmas below cover each of its outcomes |
| Unsubscription.FirstMatch | lambda/unsubscribe-lambda-function.py:58-70 | the index found is the first subscription that matches: same protocol and endpoint for email, protocol sms and equal digits for phone. There is none exactly when nothing matches |
| Unsubscription.WithoutFirstMatchRemovesOne | lambda/unsubscribe-lambda-function.py:58-72 | at most one subscription is removed, and it is the first match. The list is kept whole when nothing matches, and otherwise loses exactly that one element |
| Unsubscription.UnsubscribeNotPost | lambda/unsubscribe-lambda-function.py:19-22 | a request that is not a POST is answered 400 and changes nothing |
| Unsubscription.UnsubscribeBadRequest | lambda/unsubscribe-lambda-function.py:25-87 | a missing body, a body that does not decode, or a missing `contact` is answered 400 with its own message, and changes nothing |
| Unsubscription.UnsubscribeUnknownContact | lambda/unsubscribe-lambda-function.py:30-33 | an unknown contact is answered 404, with nothing deleted or unsubscribed |
| Unsubscription.UnsubscribeUnknownLocation | lambda/unsubscribe-lambda-function.py:38-47 | a stored location whose lower-case form is neither "puerto rico" nor "florida" is answered 400 naming it, and the record is kept |
| Unsubscription.UnsubscribeKnownContact | lambda/unsubscribe-lambda-function.py:37-81 | a known contact with a known location is answered 200 and its record is deleted, with every other record kept. Only that location's topic can change. It is unchanged when the service raises or does not list the topic, and otherwise loses its first match |
| Unsubscription.UnsubscribeTwice | lambda/unsubscribe-lambda-function.py:30-81 | only a 200 changes anything, and after a 200 the same request is answered 404 |
| Unsubscription.OwnSubscriptionMatches | lambda/unsubscribe-lambda-function.py:58-70 | the subscription a registration asks for matches the contact it was made for |
| Unsubscription.PhoneMatchIgnoresNonDigit | lambda/unsubscribe-lambda-function.py:63-67 | a non-digit character in an sms endpoint does not change whether it matches a phone contact |
| Registry.Registry.Register | lambda/user-registration-function-lambda.py:10-80 | the handler leaves the table and topics, and returns the response, that `Registration.Register` gives for the old state |
| Registry.Registry.Unsubscribe | lambda/unsubscribe-lambda-function.py:16-81 | the handler, with its first-match loop and `break`, leaves the state and returns the response that `Unsubscription.Unsubscribe` gives for the old state |
| Registry.TrackedTopicsAgree | lambda/unsubscribe-lambda-function.py:41-44 | for "Puerto Rico" and "Florida", the registration's topic name, the unsubscribe handler's topic and the analyser's topic are the same |
| Registry.RegisterAppends | lambda/user-registration-function-lambda.py:42-64 | for a new contact whose topic exists and does not yet hold its subscription, with no subscribe error, the registration stores the record, appends the subscription to the topic and answers 200 |
| Registry.RegisterThenUnsubscribe | lambda/unsubscribe-lambda-function.py:37-81 | take a new contact and a location both handlers map to the same topic, where the topic, if it exists, holds no subscription that already matches the contact. Register and then unsubscribe the contact, with the unsubscribe's service calls not raising. The table and the topics are restored exactly, and the unsubscribe answers 200. The registration answers 200 exactly when the topic exists |
| Registry.RegisterThenUnsubscribeSubscribed | lambda/unsubscribe-lambda-function.py:37-81 | that round trip when the topic exists and holds no subscription matching the contact beforehand, and the unsubscribe's service calls do not raise: both calls answer 200 and the store is restored |
| Registry.RegisterThenUnsubscribeNoTopic | lambda/user-registration-function-lambda.py:42-70 | that round trip when the topic is missing: the registration answers 500 but keeps the record, and the unsubscribe deletes it, restoring the store |
| Registry.UnsubscribeUndoesAppend | lambda/unsubscribe-lambda-function.py:37-81 | unsubscribing a contact just stored, whose subscription was appended to a topic where nothing else matches it, answers 200 and gives back the store from before the registration |
| Registry.RegisterThenUnsubscribeTracked | lambda/unsubscribe-lambda-function.py:41-44 | that round trip holds for both tracked locations, under the same conditions: the topic holds no subscription matching the contact beforehand, and the unsubscribe's service calls do not raise |
| Registry.RegisterThenUnsubscribeMisrouted | lambda/user-registration-function-lambda.py:52 | take a location the unsubscribe handler maps to another topic than the registration derived. The contact's record is deleted, but when the subscribe went through (the registration's topic exists, and the answer was 200), the subscription stays in the registration's topic |
| Registry.LowerCaseFloridaMisrouted | lambda/user-registration-function-lambda.py:52 | "florida" is such a location. It is registered under "florida-topic", which is neither tracked topic, while unsubscribing looks in "Florida-topic" |
| Registry.LowerCaseTopicUntracked | hurricane-notification-function-lambda.py:42-45 | a topic that begins with a lower-case 'f' is neither of the analyser's topics |
| Registry.LowerCaseSpellings | lambda/user-registration-function-lambda.py:52 | a lower-case location without spaces is its own lower case, and its topic is the location followed by "-topic" |

## Left out

- Fetching the bulletin page and parsing its HTML. The bulletin text is an input.
- `update_7day_image` and its upload. The image step runs before the `try` block, so its failure
  ends an invocation before any bulletin text is read. This is not modelled.
- `get_relevant_excerpt` fetches the page a second time. The model takes the excerpt from the
  section of the same bulletin. A second fetch that differs, or that lacks a marker, is not
  modelled.
- Reading the clock. Today's weekday is a parameter, and the timestamps of arrival records are
  not modelled.
- The publish call itself, the account lookup and the topic ARN.
  - A topic is known by its name.
  - A publish either goes through or raises the error text given for its topic.
  - No other exception inside the analyser's `try` is modelled.
- The store and object-store writes of arrival records and of the summary. These helpers swallow
  their own errors, so the model lists the records and the summary the handler asks to write.
- The JSON encoding of the summary and of response bodies, and the response headers.
  - The analyser's body is one of its four answers, `Body`; `BodyText` gives its exact text.
  - The registration body is `json.dumps(message)`.
  - The unsubscribe body is `json.dumps({'message': message})`.
  - Both are modelled as status code plus message.
- Request bodies that are not objects of strings. The model's `Json` holds only such objects and
  text that does not decode. In the source the other bodies end as follows:
  - Registration, a body that is a JSON list or string lacking 'contact' or 'location' (as an
    element or as a substring): the `not in` test is true. The answer is the 400 "Missing
    required fields: contact and location" (user-registration-function-lambda.py:26-27 and
    75-77).
  - Registration, a list or string that holds both, a number or null as body, or a contact that
    is not a string: the indexing, the `in` test or the table calls raise. The answer is the 500
    "An unexpected error occurred".
  - Registration, a `location` that is not a string (a number, null or a list): the record is
    stored (user-registration-function-lambda.py:42-48), then `location.replace` raises
    AttributeError (:52). The answer is the 500 "An unexpected error occurred", and the record
    stays.
  - Unsubscribe, a `body` that is not text (an object already decoded, or null): `json.loads`
    raises TypeError, and the answer is the 500 "An unexpected error occurred".
  - Unsubscribe, a body that decodes to a list, a string or a number: indexing it by 'contact'
    raises TypeError, with the same 500.
  - Unsubscribe, a `contact` that is not a string: the table lookup rejects the key. When the
    service rejects it, the answer is the 500 "An AWS service error occurred"
    (unsubscribe-lambda-function.py:88-90); otherwise it is the 500 "An unexpected error
    occurred".
- A request without `httpMethod`. Its KeyError is raised outside the unsubscribe handler's `try`.
- Failures of the users table and of the account lookup in the two subscriber handlers. These are
  the 500 "An AWS service error occurred" and "An unexpected error occurred" answers.
- Subscribe failures other than a missing topic are modelled only through the error text given
  to `Register`. A missing topic is modelled, with the NotFound text the service client gives.
- A listing or an unsubscribe that raises is modelled as the single flag `snsFails`, and so is
  the unsubscribe of a subscription still pending confirmation. A topic missing from the store is
  treated the same way.
- Paging of the topic's subscription list. The model searches the whole list, where the source
  sees only the first page.
- Unicode behaviour of `lower`, `isdigit` and `strip`. Only ASCII is modelled, with the ASCII
  whitespace `strip` removes.
- The interleaving of publishes and record writes. The notifications, the records and the
  summary lines of a run are each kept in handler order, but in separate lists.
- Two requests for the same contact running at once.

=== FILE: BulletinAnalyzer.dfy ===
/**
 * The bulletin analyser (`lambda_handler` of the hurricane notification
 * function): it cuts the special-features section out of the bulletin text,
 * looks for each tracked location in it, estimates the days until arrival
 * from the sentences that name the location, and produces the notifications,
 * the arrival records, the summary message and the response of one run.
 *
 * The fetched bulletin text, today's weekday and the errors the notification
 * service raises for a topic are parameters; the effects on the outside world
 * are returned as values. The notifications, the arrival records and the
 * summary lines are each kept in the order the handler causes them, in
 * separate lists, so how notifications and records interleave is not kept.
 */
module BulletinAnalyzer {
  import opened Wrappers
  import opened Text
  import opened DayEstimator

  // ---------------------------------------------------------------------
  // Configuration and results
  // ---------------------------------------------------------------------

  const StartMarker: string := "...SPECIAL FEATURES..."
  const EndMarker: string := "...TROPICAL WAVES..."

  /** A tracked location and the notification topic of its subscribers. */
  datatype TrackedLocation = TrackedLocation(name: string, topic: string)

  /** `locations`, in the order of the dict literal. */
  const TrackedLocations: seq<TrackedLocation> := [
    TrackedLocation("Puerto Rico", "PuertoRico-topic"),
    TrackedLocation("Florida", "Florida-topic")
  ]

  const NoThreatSentinel: string := "No current threat"
  const NoDetails: string := "No specific details found."
  const NoHurricaneMessage: string :=
    "No hurricane or tropical storm detected to arrive to the tracked locations in the coming days"

  const NotifiedBody: string :=
    "Function executed successfully. Special features found and analyzed. 7-day image updated. Hurricane arrivals updated. Summary JSON updated."
  const NothingToNotifyBody: string :=
    "Function executed successfully. No special features requiring notification. 7-day image updated. Hurricane arrivals updated. Summary JSON updated."
  const NoSectionBody: string :=
    "Function executed successfully. No special features found in the current report. 7-day image updated. Hurricane arrivals updated. Summary JSON updated."

  /** The body of the 500 response, around the text of the exception that ended the run. */
  function ErrorBody(error: string): string {
    ErrorPrefix + error + ErrorSuffix
  }

  const ErrorPrefix: string := "An error occurred while processing special features: "
  const ErrorSuffix: string :=
    ". 7-day image was updated. Hurricane arrivals and summary JSON may not have been fully updated."

  /** The `days_to_arrival` attribute of an arrival record: a number of days or the sentinel text. */
  datatype ArrivalValue = Days(n: int) | Sentinel(text: string)

  /** `days if days is not None else "No current threat"`. */
  function ArrivalValueOf(days: Option<int>): ArrivalValue {
    match days
    case Some(n) => Days(n)
    case None => Sentinel(NoThreatSentinel)
  }

  /** An item written to the arrival table; its timestamp is not modelled. */
  datatype ArrivalRecord = ArrivalRecord(location: string, daysToArrival: ArrivalValue)

  /** A message published to a notification topic. */
  datatype Notification = Notification(topic: string, message: string)

  /**
   * The four bodies the handler answers with: the three success texts and
   * the error text around the exception that ended the run. `BodyText` gives
   * the text, and different bodies have different texts (`BodyTextsDiffer`).
   */
  datatype Body = NoSectionFound | Notified | NothingToNotify | Failed(error: string)

  /** The text of a body. */
  function BodyText(b: Body): string {
    match b
    case NoSectionFound => NoSectionBody
    case Notified => NotifiedBody
    case NothingToNotify => NothingToNotifyBody
    case Failed(error) => ErrorBody(error)
  }

  /** Different bodies have different texts, so the text tells which answer the handler gave. */
  lemma BodyTextsDiffer(a: Body, b: Body)
    requires a != b
    ensures BodyText(a) != BodyText(b)
  {
    if a.Failed? && b.Failed? {
      if ErrorBody(a.error) == ErrorBody(b.error) {
        ErrorBodyDetermined(a.error, b.error);
      }
    } else if a.Failed? || b.Failed? {
      BodyTextCloses(a);
      BodyTextCloses(b);
    } else {
      assert |BodyText(a)| != |BodyText(b)|;
    }
  }

  /** The error text can be read back from the body of a 500 answer. */
  lemma ErrorBodyDetermined(e1: string, e2: string)
    requires ErrorBody(e1) == ErrorBody(e2)
    ensures e1 == e2
  {
    MiddleDetermined(ErrorPrefix, e1, e2, ErrorSuffix);
  }

  /**
   * The tenth character from the end tells the error text from the success
   * texts: it is the 'y' of "fully updated." in the error text and the 'N' of
   * "JSON updated." in the three success texts.
   */
  lemma BodyTextCloses(b: Body)
    ensures var t := BodyText(b); |t| >= 10 && t[|t| - 10] == (if b.Failed? then 'y' else 'N')
  {
    if b.Failed? {
      assert ErrorSuffix[|ErrorSuffix| - 10] == 'y';
    }
  }

  /** Text between a fixed prefix and a fixed suffix is determined by the whole. */
  lemma MiddleDetermined(p: string, x: string, y: string, q: string)
    requires p + x + q == p + y + q
    ensures x == y
  {
    assert |x| == |y|;
    forall k | 0 <= k < |x|
      ensures x[k] == y[k]
    {
      assert (p + x + q)[|p| + k] == x[k];
      assert (p + y + q)[|p| + k] == y[k];
    }
  }

  /** The status code and body the handler returns. */
  datatype Response = Response(statusCode: int, body: Body)

  /**
   * What one run does: the messages published, the arrival records written,
   * the summary message written (None when the summary is not written) and the
   * response.
   */
  datatype RunOutcome = RunOutcome(
    notifications: seq<Notification>,
    records: seq<ArrivalRecord>,
    summary: Option<string>,
    response: Response)

  // ---------------------------------------------------------------------
  // Message texts
  // ---------------------------------------------------------------------

  /** Python's `str(n)` for an integer. */
  function IntToString(n: int): string {
    if n < 0 then "-" + DecimalString(-n) else DecimalString(n)
  }

  /** The message handed to `send_notification`. */
  function WarningText(name: string, days: int): string {
    "WARNING: Potential storm approaching " + name + " in " + IntToString(days) + " days"
  }

  /** `full_message` of `send_notification`: the warning followed by the report excerpt. */
  function NotificationMessage(name: string, days: int, excerpt: string): string {
    WarningText(name, days) + "\n\nRelevant report excerpt:\n" + excerpt
  }

  /** One entry of the `summary` list. */
  function SummaryLine(name: string, days: int): string {
    name + ": " + IntToString(days) + " days till arrival"
  }

  /** `summary_message` of `update_summary_json`. */
  function SummaryMessage(lines: seq<string>): string {
    if lines == [] then NoHurricaneMessage else Join(lines, '\n')
  }

  // ---------------------------------------------------------------------
  // Section extraction
  // ---------------------------------------------------------------------

  /**
   * `content[content.index(start):content.index(end)]`, or None where one of
   * the two `index` calls raises ValueError.
   */
  function SectionBetween(content: string, start: string, end: string): Option<string> {
    match (IndexOf(content, start), IndexOf(content, end))
    case (Some(s), Some(e)) => Some(Slice(content, s, e))
    case _ => None
  }

  /** The special-features section of a bulletin. */
  function ExtractSection(content: string): Option<string> {
    SectionBetween(content, StartMarker, EndMarker)
  }

  /**
   * A section exists exactly when both markers occur. It is empty when the end
   * marker comes first, it never holds the end marker, and when it is long
   * enough it opens with the start marker.
   */
  lemma SectionBetweenMarkers(content: string, start: string, end: string)
    requires end != ""
    ensures SectionBetween(content, start, end).Some? <==> Contains(content, start) && Contains(content, end)
    ensures SectionBetween(content, start, end).Some? ==>
      var section := SectionBetween(content, start, end).value;
      && (IndexOf(content, end).value < IndexOf(content, start).value ==> section == "")
      && !Contains(section, end)
      && (|section| >= |start| ==> section[..|start|] == start)
  {
    if SectionBetween(content, start, end).Some? {
      var s := IndexOf(content, start).value;
      var e := IndexOf(content, end).value;
      if s <= e {
        SliceLacksEnd(content, end, s, e);
        SliceOpensWithStart(content, start, s, e);
      } else {
        assert !OccursAt("", end, 0);
      }
    }
  }

  /** A slice that stops at the first occurrence of `end` does not hold `end`. */
  lemma SliceLacksEnd(content: string, end: string, s: nat, e: nat)
    requires end != "" && s <= e
    requires IndexOf(content, end) == Some(e)
    ensures !Contains(content[s..e], end)
  {
    var section := content[s..e];
    if Contains(section, end) {
      var j := IndexOf(section, end).value;
      OccursInSlice(content, end, s, e, j);
      assert false;
    }
  }

  /** A slice from an occurrence of `start` opens with `start` when it is long enough. */
  lemma SliceOpensWithStart(content: string, start: string, s: nat, e: nat)
    requires s <= e <= |content| && IndexOf(content, start) == Some(s)
    ensures e - s >= |start| ==> content[s..e][..|start|] == start
  {
    if e - s >= |start| {
      var section := content[s..e];
      forall k | 0 <= k < |start|
        ensures section[..|start|][k] == start[k]
      {
        assert content[s..s + |start|][k] == start[k];
      }
    }
  }

  // ---------------------------------------------------------------------
  // Excerpt selection (`get_relevant_excerpt`)
  // ---------------------------------------------------------------------

  /** The first piece that contains `name`. */
  function FirstMention(pieces: seq<string>, name: string): Option<string> {
    if pieces == [] then None
    else if Contains(pieces[0], name) then Some(pieces[0])
    else FirstMention(pieces[1..], name)
  }

  /** What `get_relevant_excerpt` returns for a section. */
  function Excerpt(section: string, name: string): string {
    match FirstMention(Split(section, '.'), name)
    case Some(sentence) => Strip(sentence)
    case None => NoDetails
  }

  /**
   * FirstMention is the first piece that contains the name, and None exactly
   * when no piece contains it.
   */
  lemma {:induction false} FirstMentionIsFirst(pieces: seq<string>, name: string)
    ensures FirstMention(pieces, name).None? <==> forall i :: 0 <= i < |pieces| ==> !Contains(pieces[i], name)
    ensures FirstMention(pieces, name).Some? ==>
      exists i :: 0 <= i < |pieces| && pieces[i] == FirstMention(pieces, name).value
        && Contains(pieces[i], name)
        && forall j :: 0 <= j < i ==> !Contains(pieces[j], name)
  {
    if pieces != [] && !Contains(pieces[0], name) {
      FirstMentionIsFirst(pieces[1..], name);
      if FirstMention(pieces[1..], name).Some? {
        var i :| 0 <= i < |pieces[1..]| && pieces[1..][i] == FirstMention(pieces[1..], name).value
          && Contains(pieces[1..][i], name)
          && forall j :: 0 <= j < i ==> !Contains(pieces[1..][j], name);
        assert pieces[i + 1] == pieces[1..][i];
      }
    }
  }

  /**
   * A location name without a period that occurs in the section always occurs
   * in one of its sentences, so the handler never publishes the "No specific
   * details found." excerpt.
   */
  lemma ExcerptFoundWhenMentioned(section: string, name: string)
    requires Contains(section, name)
    requires '.' !in name
    ensures FirstMention(Split(section, '.'), name).Some?
    ensures Excerpt(section, name) == Strip(FirstMention(Split(section, '.'), name).value)
    ensures Excerpt(section, name) != NoDetails
  {
    var pieces := Split(section, '.');
    ContainedInSomePiece(section, '.', name);
    FirstMentionIsFirst(pieces, name);
    SplitPiecesLackSeparator(section, '.');
    var i :| 0 <= i < |pieces| && pieces[i] == FirstMention(pieces, name).value;
    StripKeepsAbsent(pieces[i], '.');
    assert NoDetails[|NoDetails| - 1] == '.';
  }

  /** `get_relevant_excerpt(location)` on the section of the same bulletin. */
  method GetRelevantExcerpt(section: string, location: string) returns (excerpt: string)
    ensures excerpt == Excerpt(section, location)
  {
    var sentences := Split(section, '.');
    for i := 0 to |sentences|
      invariant FirstMention(sentences[i..], location) == FirstMention(sentences, location)
    {
      assert sentences[i..][1..] == sentences[i + 1..];
      if Contains(sentences[i], location) {
        return Strip(sentences[i]);
      }
    }
    return NoDetails;
  }

  // ---------------------------------------------------------------------
  // The sentence loop of one location
  // ---------------------------------------------------------------------

  /** A sentence that names the location and yields an estimate. */
  predicate Dated(sentence: string, name: string, today: Weekday) {
    Contains(sentence, name) && Estimate(sentence, today).Some?
  }

  /**
   * The days the sentence loop settles on: the estimate of the first sentence
   * that names the location and yields one. Sentences that name the location
   * but no weekday are passed over.
   */
  function FirstEstimate(sentences: seq<string>, name: string, today: Weekday): Option<int> {
    if sentences == [] then None
    else if Dated(sentences[0], name, today) then Estimate(sentences[0], today)
    else FirstEstimate(sentences[1..], name, today)
  }

  /** The loop settles on the first dated sentence, whatever undated sentences come before it. */
  lemma {:induction false} FirstEstimateAt(sentences: seq<string>, name: string, today: Weekday, i: nat)
    requires i < |sentences| && Dated(sentences[i], name, today)
    requires forall j :: 0 <= j < i ==> !Dated(sentences[j], name, today)
    ensures FirstEstimate(sentences, name, today) == Estimate(sentences[i], today)
  {
    if i > 0 {
      var rest := sentences[1..];
      assert !Dated(sentences[0], name, today);
      assert rest[i - 1] == sentences[i];
      forall j | 0 <= j < i - 1
        ensures !Dated(rest[j], name, today)
      {
        assert rest[j] == sentences[j + 1];
      }
      FirstEstimateAt(rest, name, today, i - 1);
    }
  }

  /** The loop settles on nothing exactly when no sentence is dated. */
  lemma {:induction false} FirstEstimateNone(sentences: seq<string>, name: string, today: Weekday)
    ensures FirstEstimate(sentences, name, today).None? <==>
      forall j :: 0 <= j < |sentences| ==> !Dated(sentences[j], name, today)
  {
    if sentences != [] {
      FirstEstimateNone(sentences[1..], name, today);
      if !Dated(sentences[0], name, today) {
        assert forall j :: 1 <= j < |sentences| ==> sentences[j] == sentences[1..][j - 1];
      }
    }
  }

  /** A settled value is a real estimate: between 1 and 7 days. */
  lemma {:induction false} FirstEstimateInRange(sentences: seq<string>, name: string, today: Weekday)
    ensures FirstEstimate(sentences, name, today).Some? ==> 1 <= FirstEstimate(sentences, name, today).value <= 7
  {
    if sentences != [] {
      if Dated(sentences[0], name, today) {
        EstimateIsSoonestMentioned(sentences[0], today);
      } else {
        FirstEstimateInRange(sentences[1..], name, today);
      }
    }
  }

  // ---------------------------------------------------------------------
  // The effects of a run
  // ---------------------------------------------------------------------

  /**
   * The effects of the loop over locations so far: notifications, arrival
   * records, summary lines, and the error of a publish that ended the run.
   */
  datatype Effects = Effects(
    notifications: seq<Notification>,
    records: seq<ArrivalRecord>,
    lines: seq<string>,
    error: Option<string>)

  const NoEffects: Effects := Effects([], [], [], None)

  /** The effects of `a` followed by those of `b`. */
  function Then(a: Effects, b: Effects): Effects {
    Effects(a.notifications + b.notifications, a.records + b.records, a.lines + b.lines, b.error)
  }

  /**
   * The loop body for one location. A location absent from the section gets
   * the sentinel record; a present one with a dated sentence gets one
   * notification, one record and one summary line, unless publishing to its
   * topic raises, which ends the run before the record and the line.
   */
  function LocationEffects(section: string, loc: TrackedLocation, today: Weekday,
                           publishErrors: map<string, string>): Effects
  {
    if !Contains(section, loc.name) then
      Effects([], [ArrivalRecord(loc.name, ArrivalValueOf(None))], [], None)
    else
      match FirstEstimate(Split(section, '.'), loc.name, today)
      case None => NoEffects
      case Some(days) =>
        if loc.topic in publishErrors then Effects([], [], [], Some(publishErrors[loc.topic]))
        else
          Effects(
            [Notification(loc.topic, NotificationMessage(loc.name, days, Excerpt(section, loc.name)))],
            [ArrivalRecord(loc.name, ArrivalValueOf(Some(days)))],
            [SummaryLine(loc.name, days)],
            None)
  }

  /** The loop over the locations, which stops at the first publish that raises. */
  function ScanLocations(section: string, locs: seq<TrackedLocation>, today: Weekday,
                         publishErrors: map<string, string>): Effects
  {
    if locs == [] then NoEffects
    else
      var first := LocationEffects(section, locs[0], today, publishErrors);
      if first.error.Some? then first
      else Then(first, ScanLocations(section, locs[1..], today, publishErrors))
  }

  /** The effects of one location, scanned on its own. */
  lemma ScanOne(section: string, loc: TrackedLocation, today: Weekday, publishErrors: map<string, string>)
    ensures ScanLocations(section, [loc], today, publishErrors) == LocationEffects(section, loc, today, publishErrors)
  {
    var first := LocationEffects(section, loc, today, publishErrors);
    if first.error.None? {
      assert [loc][1..] == [];
      assert Then(first, NoEffects) == first;
    }
  }

  /**
   * Scanning two runs of locations one after the other, when the first run
   * ends without a publish error, is scanning their concatenation.
   */
  lemma {:induction false} ScanConcat(section: string, p: seq<TrackedLocation>, r: seq<TrackedLocation>,
                                      today: Weekday, publishErrors: map<string, string>)
    requires ScanLocations(section, p, today, publishErrors).error.None?
    ensures ScanLocations(section, p + r, today, publishErrors)
      == Then(ScanLocations(section, p, today, publishErrors), ScanLocations(section, r, today, publishErrors))
  {
    if p == [] {
      assert p + r == r;
      var e := ScanLocations(section, r, today, publishErrors);
      assert [] + e.notifications == e.notifications;
      assert [] + e.records == e.records;
      assert [] + e.lines == e.lines;
    } else {
      assert (p + r)[1..] == p[1..] + r;
      ScanConcat(section, p[1..], r, today, publishErrors);
      var first := LocationEffects(section, p[0], today, publishErrors);
      assert (p + r)[0] == p[0];
      ThenAssoc(first, ScanLocations(section, p[1..], today, publishErrors), ScanLocations(section, r, today, publishErrors));
    }
  }

  lemma ThenAssoc(a: Effects, b: Effects, c: Effects)
    ensures Then(Then(a, b), c) == Then(a, Then(b, c))
  {
    assert (a.notifications + b.notifications) + c.notifications == a.notifications + (b.notifications + c.notifications);
    assert (a.records + b.records) + c.records == a.records + (b.records + c.records);
    assert (a.lines + b.lines) + c.lines == a.lines + (b.lines + c.lines);
  }

  /** One more location scanned without a publish error extends the effects by its own. */
  lemma ScanStep(section: string, locs: seq<TrackedLocation>, i: nat, today: Weekday, publishErrors: map<string, string>)
    requires i < |locs|
    requires ScanLocations(section, locs[..i], today, publishErrors).error.None?
    ensures ScanLocations(section, locs[..i + 1], today, publishErrors)
      == Then(ScanLocations(section, locs[..i], today, publishErrors), LocationEffects(section, locs[i], today, publishErrors))
  {
    var p, q := locs[..i], locs[..i + 1];
    assert q == p + [locs[i]];
    ScanConcat(section, p, [locs[i]], today, publishErrors);
    ScanOne(section, locs[i], today, publishErrors);
  }

  /** A publish error at location `i` ends the scan with the effects before it and that error. */
  lemma ScanErrorAt(section: string, locs: seq<TrackedLocation>, i: nat, today: Weekday, publishErrors: map<string, string>)
    requires i < |locs|
    requires ScanLocations(section, locs[..i], today, publishErrors).error.None?
    requires LocationEffects(section, locs[i], today, publishErrors).error.Some?
    ensures ScanLocations(section, locs, today, publishErrors)
      == Then(ScanLocations(section, locs[..i], today, publishErrors), LocationEffects(section, locs[i], today, publishErrors))
  {
    assert locs == locs[..i] + locs[i..];
    ScanConcat(section, locs[..i], locs[i..], today, publishErrors);
    assert locs[i..][0] == locs[i] && locs[i..] != [];
  }

  /** What `lambda_handler` does with the bulletin text `content`. */
  function Run(content: string, today: Weekday, publishErrors: map<string, string>): RunOutcome {
    match ExtractSection(content)
    case None =>
      RunOutcome([], [], Some(SummaryMessage([])), Response(200, NoSectionFound))
    case Some(section) =>
      var e := ScanLocations(section, TrackedLocations, today, publishErrors);
      if e.error.Some? then
        RunOutcome(e.notifications, e.records, None, Response(500, Failed(e.error.value)))
      else
        RunOutcome(e.notifications, e.records, Some(SummaryMessage(e.lines)),
                   Response(200, if e.lines != [] then Notified else NothingToNotify))
  }

  // ---------------------------------------------------------------------
  // Properties of the loop body and of a run
  // ---------------------------------------------------------------------

  /** Some sentence of the section names the location and a weekday. */
  predicate HasDatedSentence(section: string, name: string, today: Weekday) {
    exists j :: 0 <= j < |Split(section, '.')| && Dated(Split(section, '.')[j], name, today)
  }

  /** A location the section does not name gets the sentinel record and nothing else. */
  lemma LocationAbsent(section: string, loc: TrackedLocation, today: Weekday, publishErrors: map<string, string>)
    requires !Contains(section, loc.name)
    ensures LocationEffects(section, loc, today, publishErrors)
      == Effects([], [ArrivalRecord(loc.name, Sentinel(NoThreatSentinel))], [], None)
  {
  }

  /**
   * A location the section names, but in no sentence that also names a
   * weekday, gets nothing at all: no notification, and not even a record.
   */
  lemma LocationUndated(section: string, loc: TrackedLocation, today: Weekday, publishErrors: map<string, string>)
    requires Contains(section, loc.name) && !HasDatedSentence(section, loc.name, today)
    ensures LocationEffects(section, loc, today, publishErrors) == NoEffects
  {
    FirstEstimateNone(Split(section, '.'), loc.name, today);
  }

  /** A publish that raises leaves no record and no summary line, only the error. */
  lemma LocationPublishFails(section: string, loc: TrackedLocation, today: Weekday, publishErrors: map<string, string>)
    requires Contains(section, loc.name) && HasDatedSentence(section, loc.name, today)
    requires loc.topic in publishErrors
    ensures LocationEffects(section, loc, today, publishErrors) == Effects([], [], [], Some(publishErrors[loc.topic]))
  {
    FirstEstimateNone(Split(section, '.'), loc.name, today);
  }

  /**
   * The first piece that names the location is the one FirstMention picks,
   * so it is the sentence the excerpt is cut from.
   */
  lemma FirstMentionAt(pieces: seq<string>, name: string, j: nat)
    requires j < |pieces| && Contains(pieces[j], name)
    requires forall k :: 0 <= k < j ==> !Contains(pieces[k], name)
    ensures FirstMention(pieces, name) == Some(pieces[j])
  {
    FirstMentionIsFirst(pieces, name);
    var i :| 0 <= i < |pieces| && pieces[i] == FirstMention(pieces, name).value
      && Contains(pieces[i], name)
      && forall k :: 0 <= k < i ==> !Contains(pieces[k], name);
    if i < j || j < i {
      assert false;
    }
  }

  /**
   * A dated location whose publish goes through gets one notification, one
   * record and one summary line. All three carry the estimate of sentence
   * `i`, the first sentence that names the location and a weekday, which is
   * between 1 and 7 days. The notification's excerpt is sentence `j`, the
   * first sentence that names the location at all: it may come before `i`
   * and name no weekday.
   */
  lemma LocationNotified(section: string, loc: TrackedLocation, today: Weekday, publishErrors: map<string, string>,
                         i: nat, j: nat)
    requires Contains(section, loc.name)
    requires i < |Split(section, '.')| && Dated(Split(section, '.')[i], loc.name, today)
    requires forall k :: 0 <= k < i ==> !Dated(Split(section, '.')[k], loc.name, today)
    requires j < |Split(section, '.')| && Contains(Split(section, '.')[j], loc.name)
    requires forall k :: 0 <= k < j ==> !Contains(Split(section, '.')[k], loc.name)
    requires loc.topic !in publishErrors
    ensures j <= i
    ensures var d := Estimate(Split(section, '.')[i], today).value;
      && 1 <= d <= 7
      && LocationEffects(section, loc, today, publishErrors) == Effects(
           [Notification(loc.topic, NotificationMessage(loc.name, d, Strip(Split(section, '.')[j])))],
           [ArrivalRecord(loc.name, Days(d))],
           [SummaryLine(loc.name, d)],
           None)
  {
    var sentences := Split(section, '.');
    if i < j {
      assert false;
    }
    FirstEstimateAt(sentences, loc.name, today, i);
    EstimateIsSoonestMentioned(sentences[i], today);
    FirstMentionAt(sentences, loc.name, j);
    var d := Estimate(sentences[i], today).value;
    assert ArrivalValueOf(Some(d)) == Days(d);
  }

  /**
   * Over any list of locations, the loop publishes exactly one summary line
   * per notification, and at most one notification and one record per
   * location.
   */
  lemma {:induction false} ScanCounts(section: string, locs: seq<TrackedLocation>, today: Weekday,
                                      publishErrors: map<string, string>)
    ensures var e := ScanLocations(section, locs, today, publishErrors);
      |e.lines| == |e.notifications| <= |locs| && |e.records| <= |locs|
  {
    if locs != [] {
      var loc := locs[0];
      if !Contains(section, loc.name) {
        LocationAbsent(section, loc, today, publishErrors);
      } else if !HasDatedSentence(section, loc.name, today) {
        LocationUndated(section, loc, today, publishErrors);
      } else if loc.topic in publishErrors {
        LocationPublishFails(section, loc, today, publishErrors);
      } else {
        FirstEstimateNone(Split(section, '.'), loc.name, today);
      }
      ScanCounts(section, locs[1..], today, publishErrors);
    }
  }

  /**
   * Without both markers the run writes the "no hurricane" summary and no
   * arrival record, publishes nothing and answers 200 with the
   * no-special-features body; this body is returned for no other bulletin.
   */
  lemma RunWithoutSection(content: string, today: Weekday, publishErrors: map<string, string>)
    ensures !(Contains(content, StartMarker) && Contains(content, EndMarker)) ==>
      Run(content, today, publishErrors)
        == RunOutcome([], [], Some(NoHurricaneMessage), Response(200, NoSectionFound))
    ensures Run(content, today, publishErrors).response == Response(200, NoSectionFound) <==>
      !(Contains(content, StartMarker) && Contains(content, EndMarker))
  {
    SectionBetweenMarkers(content, StartMarker, EndMarker);
  }

  /**
   * When the end marker comes before the start marker the section is empty:
   * both locations get the sentinel record, nothing is published, and the run
   * answers 200 with the nothing-to-notify body.
   */
  lemma RunEndBeforeStart(content: string, today: Weekday, publishErrors: map<string, string>)
    requires Contains(content, StartMarker) && Contains(content, EndMarker)
    requires IndexOf(content, EndMarker).value < IndexOf(content, StartMarker).value
    ensures Run(content, today, publishErrors) == RunOutcome(
      [],
      [ArrivalRecord("Puerto Rico", Sentinel(NoThreatSentinel)), ArrivalRecord("Florida", Sentinel(NoThreatSentinel))],
      Some(NoHurricaneMessage),
      Response(200, NothingToNotify))
  {
    SectionBetweenMarkers(content, StartMarker, EndMarker);
    assert ExtractSection(content) == Some("");
    assert !Contains("", TrackedLocations[0].name) by {
      assert forall j :: !OccursAt("", TrackedLocations[0].name, j);
    }
    assert !Contains("", TrackedLocations[1].name) by {
      assert forall j :: !OccursAt("", TrackedLocations[1].name, j);
    }
    LocationAbsent("", TrackedLocations[0], today, publishErrors);
    LocationAbsent("", TrackedLocations[1], today, publishErrors);
    ScanTrackedInOrder("", today, publishErrors);
  }

  /**
   * Puerto Rico is handled before Florida, and a publish that raises for
   * Puerto Rico ends the run before Florida is looked at.
   */
  lemma ScanTrackedInOrder(section: string, today: Weekday, publishErrors: map<string, string>)
    ensures var pr := LocationEffects(section, TrackedLocations[0], today, publishErrors);
      var fl := LocationEffects(section, TrackedLocations[1], today, publishErrors);
      ScanLocations(section, TrackedLocations, today, publishErrors)
        == if pr.error.Some? then pr else Then(pr, fl)
  {
    assert TrackedLocations[1..] == [TrackedLocations[1]];
    ScanOne(section, TrackedLocations[1], today, publishErrors);
  }

  /** The location is named, in a sentence that also names a weekday, and publishing to its topic raises. */
  predicate PublishRaises(section: string, loc: TrackedLocation, today: Weekday, publishErrors: map<string, string>) {
    Contains(section, loc.name) && HasDatedSentence(section, loc.name, today) && loc.topic in publishErrors
  }

  /** One location ends the run with an error exactly when its publish raises, and with that publish's error. */
  lemma LocationErrorIff(section: string, loc: TrackedLocation, today: Weekday, publishErrors: map<string, string>)
    ensures var e := LocationEffects(section, loc, today, publishErrors);
      && (e.error.Some? <==> PublishRaises(section, loc, today, publishErrors))
      && (e.error.Some? ==> e.error.value == publishErrors[loc.topic])
  {
    FirstEstimateNone(Split(section, '.'), loc.name, today);
  }

  /**
   * The loop over the locations ends with an error exactly when the publish
   * of one of them raises, and the error is that of such a location.
   */
  lemma {:induction false} ScanErrorIff(section: string, locs: seq<TrackedLocation>, today: Weekday,
                                        publishErrors: map<string, string>)
    ensures var e := ScanLocations(section, locs, today, publishErrors);
      && (e.error.Some? <==> exists k :: 0 <= k < |locs| && PublishRaises(section, locs[k], today, publishErrors))
      && (e.error.Some? ==> exists k :: 0 <= k < |locs| && PublishRaises(section, locs[k], today, publishErrors)
                                         && e.error.value == publishErrors[locs[k].topic])
  {
    if locs != [] {
      LocationErrorIff(section, locs[0], today, publishErrors);
      if LocationEffects(section, locs[0], today, publishErrors).error.None? {
        ScanErrorIff(section, locs[1..], today, publishErrors);
        assert forall k :: 1 <= k < |locs| ==> locs[k] == locs[1..][k - 1];
      }
    }
  }

  /**
   * The summary is written exactly when the run answers 200; it answers 500
   * exactly when a publish raised (RunFailsOnPublishError, RunErrorBody); and the notified body comes back exactly
   * when a notification went out. At most one notification and one record
   * per tracked location.
   */
  lemma RunResponse(content: string, today: Weekday, publishErrors: map<string, string>)
    ensures var out := Run(content, today, publishErrors);
      && (out.response.statusCode == 200 || out.response.statusCode == 500)
      && (out.summary.Some? <==> out.response.statusCode == 200)
      && (out.response == Response(200, Notified) <==> out.summary.Some? && out.notifications != [])
      && |out.notifications| <= |TrackedLocations| && |out.records| <= |TrackedLocations|
  {
    if ExtractSection(content).Some? {
      ScanCounts(ExtractSection(content).value, TrackedLocations, today, publishErrors);
    }
  }

  /**
   * The run answers 500 exactly when the bulletin has a section and the
   * publish of a tracked location raises.
   */
  lemma RunFailsOnPublishError(content: string, today: Weekday, publishErrors: map<string, string>)
    ensures Run(content, today, publishErrors).response.statusCode == 500 <==>
      ExtractSection(content).Some?
      && exists k :: 0 <= k < |TrackedLocations|
           && PublishRaises(ExtractSection(content).value, TrackedLocations[k], today, publishErrors)
  {
    if ExtractSection(content).Some? {
      var section := ExtractSection(content).value;
      ScanErrorIff(section, TrackedLocations, today, publishErrors);
      assert Run(content, today, publishErrors).response.statusCode == 500
        <==> ScanLocations(section, TrackedLocations, today, publishErrors).error.Some?;
    }
  }

  /** A scan that ends with an error carries the error of one of the scanned locations' topics. */
  lemma ScanErrorBody(section: string, locs: seq<TrackedLocation>, today: Weekday, publishErrors: map<string, string>)
    ensures var e := ScanLocations(section, locs, today, publishErrors);
      e.error.Some? ==>
        exists k :: 0 <= k < |locs| && locs[k].topic in publishErrors && e.error.value == publishErrors[locs[k].topic]
  {
    var e := ScanLocations(section, locs, today, publishErrors);
    if e.error.Some? {
      ScanErrorIff(section, locs, today, publishErrors);
      var k :| 0 <= k < |locs| && PublishRaises(section, locs[k], today, publishErrors)
        && e.error.value == publishErrors[locs[k].topic];
      assert locs[k].topic in publishErrors;
    }
  }

  /** A 500 answer carries the error that the publish of one of the tracked locations raised. */
  lemma RunErrorBody(content: string, today: Weekday, publishErrors: map<string, string>)
    ensures var out := Run(content, today, publishErrors);
      out.response.statusCode == 500 ==>
        exists k :: 0 <= k < |TrackedLocations| && TrackedLocations[k].topic in publishErrors
          && out.response.body == Failed(publishErrors[TrackedLocations[k].topic])
  {
    if ExtractSection(content).Some? {
      ScanErrorBody(ExtractSection(content).value, TrackedLocations, today, publishErrors);
    }
  }

  /** A summary line never holds a line break when the location name has none. */
  lemma SummaryLineOneLine(name: string, days: int)
    requires '\n' !in name
    ensures '\n' !in SummaryLine(name, days)
  {
    var digits := IntToString(days);
    assert forall k :: 0 <= k < |digits| ==> digits[k] == '-' || IsDigit(digits[k]);
  }

  /** The summary message splits back, line by line, into the summary list it was joined from. */
  lemma SummaryMessageLines(lines: seq<string>)
    requires lines != []
    requires SingleLines(lines)
    ensures Split(SummaryMessage(lines), '\n') == lines
  {
    SplitJoin(lines, '\n');
  }

  /** No line holds a line break. */
  predicate SingleLines(lines: seq<string>) {
    forall k :: 0 <= k < |lines| ==> '\n' !in lines[k]
  }

  /** No summary line of one location holds a line break when its name has none. */
  lemma LocationLinesOneLine(section: string, loc: TrackedLocation, today: Weekday, publishErrors: map<string, string>)
    requires '\n' !in loc.name
    ensures SingleLines(LocationEffects(section, loc, today, publishErrors).lines)
  {
    if Contains(section, loc.name) && HasDatedSentence(section, loc.name, today) && loc.topic !in publishErrors {
      FirstEstimateNone(Split(section, '.'), loc.name, today);
      var d := FirstEstimate(Split(section, '.'), loc.name, today).value;
      assert LocationEffects(section, loc, today, publishErrors).lines == [SummaryLine(loc.name, d)];
      SummaryLineOneLine(loc.name, d);
    } else if !Contains(section, loc.name) {
      LocationAbsent(section, loc, today, publishErrors);
    } else if !HasDatedSentence(section, loc.name, today) {
      LocationUndated(section, loc, today, publishErrors);
    } else {
      LocationPublishFails(section, loc, today, publishErrors);
    }
  }

  /** No summary line of a scan holds a line break when no location name does. */
  lemma {:induction false} ScanLinesOneLine(section: string, locs: seq<TrackedLocation>, today: Weekday,
                                            publishErrors: map<string, string>)
    requires forall i :: 0 <= i < |locs| ==> '\n' !in locs[i].name
    ensures SingleLines(ScanLocations(section, locs, today, publishErrors).lines)
  {
    if locs != [] {
      var first := LocationEffects(section, locs[0], today, publishErrors);
      LocationLinesOneLine(section, locs[0], today, publishErrors);
      if first.error.None? {
        var rest := ScanLocations(section, locs[1..], today, publishErrors);
        ScanLinesOneLine(section, locs[1..], today, publishErrors);
        var lines := first.lines + rest.lines;
        assert ScanLocations(section, locs, today, publishErrors).lines == lines;
        forall k | 0 <= k < |lines| ensures '\n' !in lines[k] {
          if k < |first.lines| {
            assert lines[k] == first.lines[k];
          } else {
            assert lines[k] == rest.lines[k - |first.lines|];
          }
        }
      }
    }
  }

  /**
   * The summary message a run writes after notifying splits back, line by
   * line, into the summary lines of the scan.
   */
  lemma RunSummaryRecoversLines(content: string, today: Weekday, publishErrors: map<string, string>)
    requires ExtractSection(content).Some?
    ensures var out := Run(content, today, publishErrors);
      out.summary.Some? && out.notifications != [] ==>
        Split(out.summary.value, '\n')
          == ScanLocations(ExtractSection(content).value, TrackedLocations, today, publishErrors).lines
  {
    var section := ExtractSection(content).value;
    var e := ScanLocations(section, TrackedLocations, today, publishErrors);
    ScanCounts(section, TrackedLocations, today, publishErrors);
    if e.error.None? && e.notifications != [] {
      assert forall i :: 0 <= i < |TrackedLocations| ==> '\n' !in TrackedLocations[i].name;
      ScanLinesOneLine(section, TrackedLocations, today, publishErrors);
      SummaryMessageLines(e.lines);
    }
  }

  // ---------------------------------------------------------------------
  // The handler
  // ---------------------------------------------------------------------

  /**
   * One pass of the loop over `locations` in `lambda_handler`: the sentinel
   * record for a location the section does not name; otherwise the first
   * sentence that names the location and a weekday gives the notification,
   * the arrival record and the summary line, unless the publish raises.
   */
  method ProcessLocation(section: string, loc: TrackedLocation, today: Weekday, publishErrors: map<string, string>)
    returns (e: Effects)
    ensures e == LocationEffects(section, loc, today, publishErrors)
  {
    if Contains(section, loc.name) {
      var sentences := Split(section, '.');
      for j := 0 to |sentences|
        invariant FirstEstimate(sentences[j..], loc.name, today) == FirstEstimate(sentences, loc.name, today)
      {
        assert sentences[j..][1..] == sentences[j + 1..];
        var sentence := sentences[j];
        if Contains(sentence, loc.name) {
          var days := AnalyzeSentence(sentence, today);
          if days.Some? {
            if loc.topic in publishErrors {
              // the publish raises
              return Effects([], [], [], Some(publishErrors[loc.topic]));
            }
            var excerpt := GetRelevantExcerpt(section, loc.name);
            return Effects([Notification(loc.topic, NotificationMessage(loc.name, days.value, excerpt))],
                           [ArrivalRecord(loc.name, ArrivalValueOf(days))],
                           [SummaryLine(loc.name, days.value)],
                           None);
          }
        }
      }
      return NoEffects;
    } else {
      return Effects([], [ArrivalRecord(loc.name, ArrivalValueOf(None))], [], None);
    }
  }

  /**
   * `lambda_handler` from the section extraction on, with the bulletin text,
   * today's weekday and the errors publishing raises per topic as parameters.
   */
  method LambdaHandler(content: string, today: Weekday, publishErrors: map<string, string>)
    returns (out: RunOutcome)
    ensures out == Run(content, today, publishErrors)
  {
    var start := IndexOf(content, StartMarker);
    var end := IndexOf(content, EndMarker);
    if start.None? || end.None? {
      // except ValueError: the summary is written from an empty list
      return RunOutcome([], [], Some(SummaryMessage([])), Response(200, NoSectionFound));
    }
    var section := Slice(content, start.value, end.value);
    var locations := TrackedLocations;
    var notificationsSent := false;
    var summary: seq<string> := [];
    var notifications: seq<Notification> := [];
    var records: seq<ArrivalRecord> := [];
    for i := 0 to |locations|
      invariant notificationsSent == (summary != [])
      invariant Effects(notifications, records, summary, None)
        == ScanLocations(section, locations[..i], today, publishErrors)
    {
      var e := ProcessLocation(section, locations[i], today, publishErrors);
      if e.error.Some? {
        ScanErrorAt(section, locations, i, today, publishErrors);
        return RunOutcome(notifications + e.notifications, records + e.records, None,
                          Response(500, Failed(e.error.value)));
      }
      ScanStep(section, locations, i, today, publishErrors);
      notifications := notifications + e.notifications;
      records := records + e.records;
      summary := summary + e.lines;
      if e.lines != [] {
        notificationsSent := true;
      }
    }
    assert locations[..|locations|] == locations;
    var message := SummaryMessage(summary);
    if notificationsSent {
      return RunOutcome(notifications, records, Some(message), Response(200, Notified));
    } else {
      return RunOutcome(notifications, records, Some(message), Response(200, NothingToNotify));
    }
  }
}

=== FILE: DayEstimator.dfy ===
/**
 * The sentence day-estimator (`analyze_sentence`): from one sentence of the
 * bulletin and today's weekday, the number of days until the soonest weekday
 * the sentence names, or None when it names none. Today is a parameter where
 * the source reads the clock.
 */
module DayEstimator {
  import opened Wrappers
  import opened Text

  /** A weekday index as `datetime.weekday()` gives it: Monday is 0, Sunday is 6. */
  type Weekday = d: int | 0 <= d < 7

  /** `days_of_week`: the weekday names in index order, lower case. */
  const WeekdayNames: seq<string> :=
    ["monday", "tuesday", "wednesday", "thursday", "friday", "saturday", "sunday"]

  /** The sentence, lower-cased, contains the name of weekday `d`. */
  predicate Mentions(sentence: string, d: Weekday) {
    Contains(Lower(sentence), WeekdayNames[d])
  }

  /**
   * `mentioned_days`, from index `d` on: the indices of the weekday names that
   * occur in the lower-cased sentence, in index order.
   */
  function MentionedFrom(lowered: string, d: nat): (r: seq<Weekday>)
    requires d <= 7
    ensures forall x: int :: x in r <==> (d <= x < 7 && Contains(lowered, WeekdayNames[x]))
    decreases 7 - d
  {
    if d == 7 then []
    else
      (if Contains(lowered, WeekdayNames[d]) then [d as Weekday] else [])
      + MentionedFrom(lowered, d + 1)
  }

  /**
   * `diff` as the loop computes it: the days from today to weekday `day`,
   * where a day that is today or earlier in the week means next week's.
   */
  function DaysUntil(day: Weekday, today: Weekday): int {
    var diff := day - today;
    if diff <= 0 then diff + 7 else diff
  }

  /** The weekday `k` days after `today`. */
  function WeekdayAfter(today: Weekday, k: nat): Weekday {
    (today + k) % 7
  }

  /**
   * The offset is between 1 and 7, it lands on the named weekday, it is the
   * first such day after today, and it is 7 (never 0) exactly for today's name.
   */
  lemma DaysUntilLandsOnDay(day: Weekday, today: Weekday)
    ensures 1 <= DaysUntil(day, today) <= 7
    ensures WeekdayAfter(today, DaysUntil(day, today)) == day
    ensures forall k: nat :: 1 <= k < DaysUntil(day, today) ==> WeekdayAfter(today, k) != day
    ensures DaysUntil(day, today) == 7 <==> day == today
  {
  }

  /** `days_until` for a list of weekdays. */
  function Offsets(days: seq<Weekday>, today: Weekday): seq<int> {
    seq(|days|, i requires 0 <= i < |days| => DaysUntil(days[i], today))
  }

  lemma OffsetsPointwise(days: seq<Weekday>, today: Weekday, xs: seq<int>)
    requires |xs| == |days|
    requires forall i :: 0 <= i < |days| ==> xs[i] == DaysUntil(days[i], today)
    ensures xs == Offsets(days, today)
  {
  }

  /** Python's `min` on a non-empty list of integers. */
  function Min(xs: seq<int>): (m: int)
    requires |xs| > 0
    ensures m in xs
    ensures forall k :: 0 <= k < |xs| ==> m <= xs[k]
  {
    if |xs| == 1 then xs[0]
    else
      var rest := Min(xs[1..]);
      if xs[0] <= rest then xs[0] else rest
  }

  /** What `analyze_sentence` returns: the least offset over the weekdays named, or None. */
  function Estimate(sentence: string, today: Weekday): Option<int> {
    var mentioned := MentionedFrom(Lower(sentence), 0);
    if mentioned == [] then None else Some(Min(Offsets(mentioned, today)))
  }

  /** `analyze_sentence(sentence)` with `today` in place of `datetime.now().weekday()`. */
  method AnalyzeSentence(sentence: string, today: Weekday) returns (days: Option<int>)
    ensures days == Estimate(sentence, today)
  {
    var mentioned := MentionedFrom(Lower(sentence), 0);
    if mentioned != [] {
      var daysUntil := DaysUntilEach(mentioned, today);
      return Some(Min(daysUntil));
    }
    return None;
  }

  /** The loop of `analyze_sentence` that builds `days_until`, one `diff` per mentioned weekday. */
  method DaysUntilEach(mentioned: seq<Weekday>, today: Weekday) returns (daysUntil: seq<int>)
    ensures daysUntil == Offsets(mentioned, today)
  {
    daysUntil := [];
    for k := 0 to |mentioned|
      invariant |daysUntil| == k
      invariant forall i :: 0 <= i < k ==> daysUntil[i] == DaysUntil(mentioned[i], today)
    {
      var diff := mentioned[k] - today;
      if diff <= 0 {
        diff := diff + 7;
      }
      daysUntil := daysUntil + [diff];
    }
    OffsetsPointwise(mentioned, today, daysUntil);
  }

  /**
   * The estimate is None exactly when the sentence names no weekday; otherwise
   * it is the offset of a weekday the sentence names, no greater than the
   * offset of any weekday it names, and between 1 and 7.
   */
  lemma EstimateIsSoonestMentioned(sentence: string, today: Weekday)
    ensures Estimate(sentence, today).None? <==> forall d: Weekday :: !Mentions(sentence, d)
    ensures Estimate(sentence, today).Some? ==>
      var v := Estimate(sentence, today).value;
      && 1 <= v <= 7
      && (exists d: Weekday :: Mentions(sentence, d) && DaysUntil(d, today) == v)
      && (forall d: Weekday :: Mentions(sentence, d) ==> v <= DaysUntil(d, today))
  {
    var mentioned := MentionedFrom(Lower(sentence), 0);
    if mentioned != [] {
      MinOffsetIsSoonest(mentioned, today);
      var v := Min(Offsets(mentioned, today));
      var i :| 0 <= i < |mentioned| && DaysUntil(mentioned[i], today) == v;
      assert Mentions(sentence, mentioned[i]);
      forall d: Weekday | Mentions(sentence, d)
        ensures v <= DaysUntil(d, today)
      {
        assert d in mentioned;
      }
    } else {
      forall d: Weekday ensures !Mentions(sentence, d) {
        assert d !in mentioned;
      }
    }
  }

  /**
   * The least offset over a non-empty list of weekdays is the offset of one
   * of them, no greater than the offset of any of them, and between 1 and 7.
   */
  lemma MinOffsetIsSoonest(days: seq<Weekday>, today: Weekday)
    requires days != []
    ensures var v := Min(Offsets(days, today));
      && 1 <= v <= 7
      && (exists i :: 0 <= i < |days| && DaysUntil(days[i], today) == v)
      && (forall i :: 0 <= i < |days| ==> v <= DaysUntil(days[i], today))
  {
    var offs := Offsets(days, today);
    var i :| 0 <= i < |offs| && offs[i] == Min(offs);
    assert DaysUntil(days[i], today) == Min(offs);
    DaysUntilLandsOnDay(days[i], today);
    forall j | 0 <= j < |days|
      ensures Min(offs) <= DaysUntil(days[j], today)
    {
      assert offs[j] == DaysUntil(days[j], today);
    }
  }

  /** A sentence that names one weekday only is that weekday's offset away. */
  lemma EstimateOneDay(sentence: string, today: Weekday, d: Weekday)
    requires forall x: Weekday :: Mentions(sentence, x) <==> x == d
    ensures Estimate(sentence, today) == Some(DaysUntil(d, today))
  {
    assert Mentions(sentence, d);
    EstimateIsSoonestMentioned(sentence, today);
  }

  /** A sentence whose only weekday is today's own name is 7 days away, never 0. */
  lemma EstimateTodayIsAWeek(sentence: string, today: Weekday)
    requires forall x: Weekday :: Mentions(sentence, x) <==> x == today
    ensures Estimate(sentence, today) == Some(7)
  {
    EstimateOneDay(sentence, today, today);
  }

  /** A sentence that names exactly two weekdays resolves to the sooner of the two. */
  lemma EstimateTwoDays(sentence: string, today: Weekday, d1: Weekday, d2: Weekday)
    requires forall x: Weekday :: Mentions(sentence, x) <==> (x == d1 || x == d2)
    ensures Estimate(sentence, today) ==
      Some(if DaysUntil(d1, today) <= DaysUntil(d2, today) then DaysUntil(d1, today) else DaysUntil(d2, today))
  {
    assert Mentions(sentence, d1) && Mentions(sentence, d2);
    EstimateIsSoonestMentioned(sentence, today);
  }
}

=== FILE: Registration.dfy ===
/**
 * The decisions of the registration handler: where the request body comes
 * from, the required fields, the duplicate check, the record it stores, and
 * the topic and protocol of the subscription it asks for. Whether the
 * subscribe call raises is a parameter.
 */
module Registration {
  import opened Wrappers
  import opened Text
  import opened Subscribers

  /** `event['body']`: a JSON text still to decode, or an already decoded object. */
  datatype RegistrationBody = Encoded(text: Json) | Decoded(fields: map<string, string>)

  /** The request: the fields of the event itself, and its `body` entry when there is one. */
  datatype RegistrationEvent = RegistrationEvent(fields: map<string, string>, body: Option<RegistrationBody>)

  const MissingFieldsMessage: string := "Missing required fields: contact and location"
  const DuplicateMessage: string := "User already registered"
  const RegisteredMessage: string := "Successfully registered for hurricane notifications"

  /** The message of the 500 response when the subscribe call raises `error`. */
  function SubscribeErrorMessage(error: string): string {
    "Error subscribing to notifications: " + error
  }

  /**
   * The body the handler reads: the decoded `body` text, the `body` object as
   * it is, or the whole event when there is no `body`; a text that does not
   * decode is answered with 400.
   */
  function RequestFields(event: RegistrationEvent): Result<map<string, string>, Response> {
    match event.body
    case None => Success(event.fields)
    case Some(Decoded(fields)) => Success(fields)
    case Some(Encoded(Object(fields))) => Success(fields)
    case Some(Encoded(Malformed)) => Failure(Response(400, InvalidJsonMessage))
  }

  /** `f"{location.replace(' ', '')}-topic"`. */
  function TopicName(location: string): string {
    Without(location, ' ') + "-topic"
  }

  /** `'email' if contact_type == 'email' else 'sms'`. */
  function Protocol(contactType: ContactType): string {
    if contactType == Email then "email" else "sms"
  }

  /**
   * The subscriptions of a topic after a subscribe that goes through: the
   * service keeps one subscription per protocol and endpoint, so asking again
   * changes nothing.
   */
  function Subscribed(subs: seq<Subscription>, sub: Subscription): seq<Subscription> {
    if sub in subs then subs else subs + [sub]
  }

  /**
   * The text of the error the notification service raises for a subscribe to
   * a topic that does not exist, as the service client renders it.
   */
  const TopicNotFoundError: string :=
    "An error occurred (NotFound) when calling the Subscribe operation: Topic does not exist"

  /**
   * The new store and the response of one registration, where
   * `subscribeError` is the text of the error the subscribe call raises, if
   * it raises for another reason than a missing topic. A subscribe to a
   * topic the store does not list raises the service's NotFound error.
   */
  function Register(s: Store, event: RegistrationEvent, subscribeError: Option<string>): (Store, Response) {
    match RequestFields(event)
    case Failure(response) => (s, response)
    case Success(fields) =>
      if "contact" !in fields || "location" !in fields then (s, Response(400, MissingFieldsMessage))
      else
        var contact := fields["contact"];
        var location := fields["location"];
        var contactType := ContactTypeOf(contact);
        if contact in s.users then (s, Response(400, DuplicateMessage))
        else
          var users := s.users[contact := User(contact, location, contactType)];
          var topic := TopicName(location);
          match subscribeError
          case Some(error) => (Store(users, s.topics), Response(500, SubscribeErrorMessage(error)))
          case None =>
            if topic !in s.topics then (Store(users, s.topics), Response(500, SubscribeErrorMessage(TopicNotFoundError)))
            else
              var sub := Subscription(Protocol(contactType), contact);
              (Store(users, s.topics[topic := Subscribed(s.topics[topic], sub)]), Response(200, RegisteredMessage))
  }

  // ---------------------------------------------------------------------
  // Properties
  // ---------------------------------------------------------------------

  /** The topic name never holds a space and always ends in "-topic". */
  lemma TopicNameShape(location: string)
    ensures ' ' !in TopicName(location)
    ensures |TopicName(location)| >= 6 && TopicName(location)[|TopicName(location)| - 6..] == "-topic"
  {
    var stem := Without(location, ' ');
    assert TopicName(location)[|stem|..] == "-topic";
  }

  /** Case is kept: only spaces are removed from the location. */
  lemma TopicNameOfSpaceless(location: string)
    requires ' ' !in location
    ensures TopicName(location) == location + "-topic"
  {
    WithoutAbsent(location, ' ');
  }

  /** A location of two words loses the space between them, and nothing else. */
  lemma TopicNameOfTwoWords(first: string, second: string)
    requires ' ' !in first && ' ' !in second
    ensures TopicName(first + " " + second) == first + second + "-topic"
  {
    WithoutConcat(first + " ", second, ' ');
    WithoutConcat(first, " ", ' ');
    WithoutAbsent(first, ' ');
    WithoutAbsent(second, ' ');
    assert Without(" ", ' ') == [];
    assert Without(first + " ", ' ') == first + [] == first;
  }

  /** The subscription asked for goes to the end of the topic's list unless it is there already; none is lost. */
  lemma SubscribedKeeps(subs: seq<Subscription>, sub: Subscription)
    ensures sub in Subscribed(subs, sub)
    ensures Subscribed(subs, sub)[..|subs|] == subs
    ensures |Subscribed(subs, sub)| == if sub in subs then |subs| else |subs| + 1
  {
  }

  /** A text that does not decode is answered 400 and nothing changes. */
  lemma RegisterInvalidJson(s: Store, event: RegistrationEvent, subscribeError: Option<string>)
    requires event.body == Some(Encoded(Malformed))
    ensures Register(s, event, subscribeError) == (s, Response(400, InvalidJsonMessage))
  {
  }

  /** Without both `contact` and `location` the request is answered 400 and nothing is stored or subscribed. */
  lemma RegisterMissingFields(s: Store, event: RegistrationEvent, subscribeError: Option<string>)
    requires RequestFields(event).Success?
    requires "contact" !in RequestFields(event).value || "location" !in RequestFields(event).value
    ensures Register(s, event, subscribeError) == (s, Response(400, MissingFieldsMessage))
  {
  }

  /** A contact already in the table is answered 400 and nothing changes. */
  lemma RegisterDuplicate(s: Store, event: RegistrationEvent, subscribeError: Option<string>)
    requires RequestFields(event).Success?
    requires "contact" in RequestFields(event).value && "location" in RequestFields(event).value
    requires RequestFields(event).value["contact"] in s.users
    ensures Register(s, event, subscribeError) == (s, Response(400, DuplicateMessage))
  {
  }

  /**
   * A new contact is stored with its location and a contact type that is
   * email exactly when the contact holds '@'; no other record changes. The
   * record is stored before the subscribe: when the subscribe raises, or the
   * topic named after the location does not exist, the answer is 500, the
   * record stays and no topic changes; otherwise the answer is 200 and that
   * topic holds the subscription of the contact with the protocol of its
   * type, after every subscription it held before, grows by one exactly when
   * the subscription was not there yet (and so gains nothing else), and no
   * other topic changes.
   */
  lemma RegisterNewContact(s: Store, event: RegistrationEvent, subscribeError: Option<string>)
    requires RequestFields(event).Success?
    requires "contact" in RequestFields(event).value && "location" in RequestFields(event).value
    requires RequestFields(event).value["contact"] !in s.users
    ensures var fields := RequestFields(event).value;
      var contact := fields["contact"];
      var location := fields["location"];
      var topic := TopicName(location);
      var (s', r) := Register(s, event, subscribeError);
      && contact in s'.users
      && s'.users[contact].contact == contact && s'.users[contact].location == location
      && (s'.users[contact].contactType == Email <==> '@' in contact)
      && s'.users - {contact} == s.users
      && (subscribeError.Some? ==>
            r == Response(500, SubscribeErrorMessage(subscribeError.value)) && s'.topics == s.topics)
      && (subscribeError.None? && topic !in s.topics ==>
            r == Response(500, SubscribeErrorMessage(TopicNotFoundError)) && s'.topics == s.topics)
      && (subscribeError.None? && topic in s.topics ==>
            && r == Response(200, RegisteredMessage)
            && s'.topics.Keys == s.topics.Keys
            && Subscription(if '@' in contact then "email" else "sms", contact) in s'.topics[topic]
            && s'.topics[topic][..|s.topics[topic]|] == s.topics[topic]
            && |s'.topics[topic]| == (if Subscription(if '@' in contact then "email" else "sms", contact) in s.topics[topic]
                                      then |s.topics[topic]| else |s.topics[topic]| + 1)
            && forall t :: t in s.topics && t != topic ==> s'.topics[t] == s.topics[t])
  {
    var fields := RequestFields(event).value;
    var contact := fields["contact"];
    assert s.users[contact := User(contact, fields["location"], ContactTypeOf(contact))] - {contact} == s.users;
    var topic := TopicName(fields["location"]);
    if subscribeError.None? && topic in s.topics {
      SubscribedKeeps(s.topics[topic], Subscription(Protocol(ContactTypeOf(contact)), contact));
    }
  }

  /**
   * Once a contact is stored, whether or not its subscribe went through, a
   * second registration of that contact is refused as a duplicate and
   * changes nothing: a failed subscribe is never retried by registering
   * again.
   */
  lemma RegisterAgainRefused(s: Store, event: RegistrationEvent, subscribeError: Option<string>,
                             again: RegistrationEvent, secondError: Option<string>)
    requires RequestFields(event).Success?
    requires "contact" in RequestFields(event).value && "location" in RequestFields(event).value
    requires RequestFields(again).Success?
    requires "contact" in RequestFields(again).value && "location" in RequestFields(again).value
    requires RequestFields(again).value["contact"] == RequestFields(event).value["contact"]
    ensures var (s', r) := Register(s, event, subscribeError);
      r.statusCode != 400 ==> Register(s', again, secondError) == (s', Response(400, DuplicateMessage))
  {
    var contact := RequestFields(event).value["contact"];
    if contact !in s.users {
      RegisterNewContact(s, event, subscribeError);
    }
  }
}

=== FILE: Registry.dfy ===
/**
 * The users table and the notification topics as one object that the two
 * subscriber handlers update in place, each proved to do what its
 * specification function says, and the properties of the two handlers
 * taken together: a registration undone by an unsubscribe, and the topics
 * a registration, an unsubscribe and the bulletin analyser agree on.
 */
module Registry {
  import opened Wrappers
  import opened Text
  import opened Subscribers
  import Registration
  import Unsubscription
  import BulletinAnalyzer

  /** The users table and the subscriptions of each topic, as the handlers change them. */
  class Registry {
    var users: map<string, User>
    var topics: map<string, seq<Subscription>>

    function State(): Store
      reads this
    {
      Store(users, topics)
    }

    constructor (s: Store)
      ensures State() == s
    {
      users := s.users;
      topics := s.topics;
    }

    /** The registration handler's `lambda_handler`. */
    method Register(event: Registration.RegistrationEvent, subscribeError: Option<string>) returns (response: Response)
      modifies this
      ensures (State(), response) == Registration.Register(old(State()), event, subscribeError)
    {
      var body: map<string, string>;
      match event.body {
        case None =>
          // the event itself is the body
          body := event.fields;
        case Some(Decoded(fields)) =>
          body := fields;
        case Some(Encoded(text)) =>
          if text.Malformed? {
            return Response(400, InvalidJsonMessage);
          }
          body := text.fields;
      }
      if "contact" !in body || "location" !in body {
        return Response(400, Registration.MissingFieldsMessage);
      }
      var contact := body["contact"];
      var location := body["location"];
      var contactType := ContactTypeOf(contact);
      if contact in users {
        return Response(400, Registration.DuplicateMessage);
      }
      users := users[contact := User(contact, location, contactType)];
      var topicName := Registration.TopicName(location);
      if subscribeError.Some? {
        return Response(500, Registration.SubscribeErrorMessage(subscribeError.value));
      }
      if topicName !in topics {
        return Response(500, Registration.SubscribeErrorMessage(Registration.TopicNotFoundError));
      }
      var subscriptions := topics[topicName];
      var sub := Subscription(Registration.Protocol(contactType), contact);
      if sub !in subscriptions {
        subscriptions := subscriptions + [sub];
      }
      topics := topics[topicName := subscriptions];
      return Response(200, Registration.RegisteredMessage);
    }

    /** The unsubscribe handler's `lambda_handler` and `handle_unsubscribe_request`. */
    method Unsubscribe(event: Unsubscription.UnsubscribeEvent, snsFails: bool) returns (response: Response)
      modifies this
      ensures (State(), response) == Unsubscription.Unsubscribe(old(State()), event, snsFails)
    {
      if event.httpMethod != "POST" {
        return Response(400, Unsubscription.UnsupportedMethodMessage);
      }
      if event.body.None? {
        return Response(400, Unsubscription.MissingFieldMessage("body"));
      }
      if event.body.value.Malformed? {
        return Response(400, InvalidJsonMessage);
      }
      var body := event.body.value.fields;
      if "contact" !in body {
        return Response(400, Unsubscription.MissingFieldMessage("contact"));
      }
      var contact := body["contact"];
      if contact !in users {
        return Response(404, Unsubscription.UserNotFoundMessage);
      }
      var user := users[contact];
      var contactType := ContactTypeOf(contact);
      var location := Lower(user.location);
      var topicName: string;
      if location == "puerto rico" {
        topicName := "PuertoRico-topic";
      } else if location == "florida" {
        topicName := "Florida-topic";
      } else {
        return Response(400, Unsubscription.UnknownLocationMessage(location));
      }
      // a listing or an unsubscribe that raises is logged and passed over
      if !snsFails && topicName in topics {
        var subscriptions := topics[topicName];
        for i := 0 to |subscriptions|
          invariant forall j :: 0 <= j < i ==> !Unsubscription.Matches(subscriptions[j], contact, contactType)
          invariant topics == old(topics)
        {
          var sub := subscriptions[i];
          if contactType == Email && sub.protocol == "email" && sub.endpoint == contact {
            topics := topics[topicName := Unsubscription.RemoveAt(subscriptions, i)];
            assert Unsubscription.FirstMatch(subscriptions, contact, contactType) == Some(i);
            break;
          } else if contactType == Phone {
            var cleanContact := DigitsOnly(contact);
            var cleanEndpoint := DigitsOnly(sub.endpoint);
            if sub.protocol == "sms" && cleanEndpoint == cleanContact {
              topics := topics[topicName := Unsubscription.RemoveAt(subscriptions, i)];
              assert Unsubscription.FirstMatch(subscriptions, contact, contactType) == Some(i);
              break;
            }
          }
        }
        assert topics == old(topics)[topicName := Unsubscription.WithoutFirstMatch(subscriptions, contact, contactType)];
      }
      users := users - {contact};
      return Response(200, Unsubscription.UnsubscribedMessage);
    }
  }

  // ---------------------------------------------------------------------
  // The two handlers together
  // ---------------------------------------------------------------------

  /** A registration request whose body is the object {contact, location}. */
  function RegistrationRequest(contact: string, location: string): Registration.RegistrationEvent {
    Registration.RegistrationEvent(map[], Some(Registration.Decoded(map["contact" := contact, "location" := location])))
  }

  /** An unsubscribe POST whose body is the object {contact}. */
  function UnsubscribeRequest(contact: string): Unsubscription.UnsubscribeEvent {
    Unsubscription.UnsubscribeEvent("POST", Some(Object(map["contact" := contact])))
  }

  /**
   * For the two tracked locations, written as the analyser writes them, the
   * registration handler derives the topic the analyser publishes to, and
   * the unsubscribe handler maps the location to that same topic.
   */
  lemma TrackedTopicsAgree(i: nat)
    requires i < |BulletinAnalyzer.TrackedLocations|
    ensures var loc := BulletinAnalyzer.TrackedLocations[i];
      && Registration.TopicName(loc.name) == loc.topic
      && Unsubscription.LocationTopic(Lower(loc.name)) == Some(loc.topic)
  {
    var loc := BulletinAnalyzer.TrackedLocations[i];
    if i == 0 {
      PuertoRicoSpellings(loc.name, loc.topic);
    } else {
      FloridaSpellings(loc.name, loc.topic);
    }
  }

  /**
   * The two spellings of "Puerto Rico". The name and topic are parameters
   * pinned by `requires` rather than literals in the body, which keeps the
   * proof cheap.
   */
  lemma PuertoRicoSpellings(name: string, topic: string)
    requires name == "Puerto Rico" && topic == "PuertoRico-topic"
    ensures Registration.TopicName(name) == topic
    ensures Lower(name) == "puerto rico"
  {
    PuertoRicoTopic(name, topic);
    LowerLiteral(name, "puerto rico");
  }

  /** The topic of "Puerto Rico"; the literals are pinned by `requires` to keep the proof cheap. */
  lemma PuertoRicoTopic(name: string, topic: string)
    requires name == "Puerto Rico" && topic == "PuertoRico-topic"
    ensures Registration.TopicName(name) == topic
  {
    Registration.TopicNameOfTwoWords("Puerto", "Rico");
    assert name == "Puerto" + " " + "Rico";
  }

  lemma FloridaSpellings(name: string, topic: string)
    requires name == "Florida" && topic == "Florida-topic"
    ensures Registration.TopicName(name) == topic
    ensures Lower(name) == "florida"
  {
    Registration.TopicNameOfSpaceless(name);
    LowerLiteral(name, "florida");
  }

  /** Lower-casing a text character by character. */
  lemma LowerLiteral(s: string, lowered: string)
    requires |s| == |lowered|
    requires forall k :: 0 <= k < |s| ==> LowerChar(s[k]) == lowered[k]
    ensures Lower(s) == lowered
  {
    if s != [] {
      LowerAt(s, 0);
      forall k | 0 <= k < |s|
        ensures Lower(s)[k] == lowered[k]
      {
        LowerAt(s, k);
      }
    }
  }

  /** A registration that goes through appends the contact's subscription to a topic that lacks it. */
  lemma RegisterAppends(s: Store, contact: string, location: string)
    requires contact !in s.users
    requires var topic := Registration.TopicName(location);
      topic in s.topics
      && Subscription(Registration.Protocol(ContactTypeOf(contact)), contact) !in s.topics[topic]
    ensures var topic := Registration.TopicName(location);
      var sub := Subscription(Registration.Protocol(ContactTypeOf(contact)), contact);
      Registration.Register(s, RegistrationRequest(contact, location), None)
        == (Store(s.users[contact := User(contact, location, ContactTypeOf(contact))],
                  s.topics[topic := s.topics[topic] + [sub]]),
            Response(200, Registration.RegisteredMessage))
  {
  }

  /** A subscription appended after subscriptions that do not match is the one the loop removes. */
  lemma WithoutFirstMatchOfAppended(subs: seq<Subscription>, sub: Subscription, contact: string, contactType: ContactType)
    requires forall j :: 0 <= j < |subs| ==> !Unsubscription.Matches(subs[j], contact, contactType)
    requires Unsubscription.Matches(sub, contact, contactType)
    ensures Unsubscription.WithoutFirstMatch(subs + [sub], contact, contactType) == subs
  {
    assert (subs + [sub])[|subs|] == sub;
    assert (subs + [sub])[..|subs|] == subs;
  }

  /**
   * A contact registered for a location on whose topic the two handlers
   * agree, and then unsubscribed with the service working, leaves the table
   * and the topics as they were, when that topic holds no subscription of
   * the contact beforehand. The registration answers 200 exactly when the
   * topic exists; when it does not, the registration answers 500 but keeps
   * the record, which the unsubscribe then deletes.
   */
  lemma RegisterThenUnsubscribe(s: Store, contact: string, location: string)
    requires contact !in s.users
    requires Unsubscription.LocationTopic(Lower(location)) == Some(Registration.TopicName(location))
    requires var topic := Registration.TopicName(location);
      topic in s.topics ==>
        forall j :: 0 <= j < |s.topics[topic]| ==>
          !Unsubscription.Matches(s.topics[topic][j], contact, ContactTypeOf(contact))
    ensures var (s1, r1) := Registration.Register(s, RegistrationRequest(contact, location), None);
      var (s2, r2) := Unsubscription.Unsubscribe(s1, UnsubscribeRequest(contact), false);
      && (r1.statusCode == 200 <==> Registration.TopicName(location) in s.topics)
      && r2.statusCode == 200 && s2 == s
  {
    if Registration.TopicName(location) in s.topics {
      RegisterThenUnsubscribeSubscribed(s, contact, location);
    } else {
      RegisterThenUnsubscribeNoTopic(s, contact, location);
    }
  }

  /** The round trip when the topic exists: both calls answer 200. */
  lemma RegisterThenUnsubscribeSubscribed(s: Store, contact: string, location: string)
    requires contact !in s.users
    requires Unsubscription.LocationTopic(Lower(location)) == Some(Registration.TopicName(location))
    requires var topic := Registration.TopicName(location);
      topic in s.topics
      && forall j :: 0 <= j < |s.topics[topic]| ==>
           !Unsubscription.Matches(s.topics[topic][j], contact, ContactTypeOf(contact))
    ensures var (s1, r1) := Registration.Register(s, RegistrationRequest(contact, location), None);
      var (s2, r2) := Unsubscription.Unsubscribe(s1, UnsubscribeRequest(contact), false);
      r1.statusCode == 200 && r2.statusCode == 200 && s2 == s
  {
    var topic := Registration.TopicName(location);
    var sub := Subscription(Registration.Protocol(ContactTypeOf(contact)), contact);
    Unsubscription.OwnSubscriptionMatches(contact);
    assert sub !in s.topics[topic];
    RegisterAppends(s, contact, location);
    UnsubscribeUndoesAppend(s, contact, location);
  }

  /**
   * Unsubscribing a contact that a registration has just added, together
   * with its subscription appended to a topic where nothing else matches
   * it, gives back the store from before the registration.
   */
  lemma UnsubscribeUndoesAppend(s: Store, contact: string, location: string)
    requires contact !in s.users
    requires Unsubscription.LocationTopic(Lower(location)) == Some(Registration.TopicName(location))
    requires var topic := Registration.TopicName(location);
      topic in s.topics
      && forall j :: 0 <= j < |s.topics[topic]| ==>
           !Unsubscription.Matches(s.topics[topic][j], contact, ContactTypeOf(contact))
    ensures var topic := Registration.TopicName(location);
      var sub := Subscription(Registration.Protocol(ContactTypeOf(contact)), contact);
      var s1 := Store(s.users[contact := User(contact, location, ContactTypeOf(contact))],
                      s.topics[topic := s.topics[topic] + [sub]]);
      Unsubscription.Unsubscribe(s1, UnsubscribeRequest(contact), false)
        == (s, Response(200, Unsubscription.UnsubscribedMessage))
  {
    var topic := Registration.TopicName(location);
    var contactType := ContactTypeOf(contact);
    var subs := s.topics[topic];
    var sub := Subscription(Registration.Protocol(contactType), contact);
    var users1 := s.users[contact := User(contact, location, contactType)];
    assert users1 - {contact} == s.users;
    Unsubscription.OwnSubscriptionMatches(contact);
    WithoutFirstMatchOfAppended(subs, sub, contact, contactType);
    assert s.topics[topic := subs + [sub]][topic := subs] == s.topics;
  }

  /** The round trip when the topic is missing: the registration answers 500 but keeps the record. */
  lemma RegisterThenUnsubscribeNoTopic(s: Store, contact: string, location: string)
    requires contact !in s.users
    requires Unsubscription.LocationTopic(Lower(location)) == Some(Registration.TopicName(location))
    requires Registration.TopicName(location) !in s.topics
    ensures var (s1, r1) := Registration.Register(s, RegistrationRequest(contact, location), None);
      var (s2, r2) := Unsubscription.Unsubscribe(s1, UnsubscribeRequest(contact), false);
      r1.statusCode == 500 && r2.statusCode == 200 && s2 == s
  {
    var users1 := s.users[contact := User(contact, location, ContactTypeOf(contact))];
    assert users1 - {contact} == s.users;
    var s1 := Store(users1, s.topics);
    assert Registration.Register(s, RegistrationRequest(contact, location), None)
      == (s1, Response(500, Registration.SubscribeErrorMessage(Registration.TopicNotFoundError)));
    assert Unsubscription.Unsubscribe(s1, UnsubscribeRequest(contact), false)
      == (Store(s.users, s.topics), Response(200, Unsubscription.UnsubscribedMessage));
  }

  /** The round trip above holds for both tracked locations, written as the analyser writes them. */
  lemma RegisterThenUnsubscribeTracked(s: Store, contact: string, i: nat)
    requires i < |BulletinAnalyzer.TrackedLocations|
    requires contact !in s.users
    requires var topic := BulletinAnalyzer.TrackedLocations[i].topic;
      topic in s.topics ==>
        forall j :: 0 <= j < |s.topics[topic]| ==>
          !Unsubscription.Matches(s.topics[topic][j], contact, ContactTypeOf(contact))
    ensures var loc := BulletinAnalyzer.TrackedLocations[i];
      var (s1, r1) := Registration.Register(s, RegistrationRequest(contact, loc.name), None);
      var (s2, r2) := Unsubscription.Unsubscribe(s1, UnsubscribeRequest(contact), false);
      && (r1.statusCode == 200 <==> loc.topic in s.topics)
      && r2.statusCode == 200 && s2 == s
  {
    TrackedTopicsAgree(i);
    RegisterThenUnsubscribe(s, contact, BulletinAnalyzer.TrackedLocations[i].name);
  }

  /**
   * When the unsubscribe handler maps a location to a topic other than the
   * one the registration derived, registering and then unsubscribing the
   * contact deletes its record, but when the subscribe went through (the
   * registration's topic exists), both calls answer 200 and the
   * subscription stays in the registration's topic.
   */
  lemma RegisterThenUnsubscribeMisrouted(s: Store, contact: string, location: string)
    requires contact !in s.users
    requires Unsubscription.LocationTopic(Lower(location)).Some?
    requires Unsubscription.LocationTopic(Lower(location)) != Some(Registration.TopicName(location))
    ensures var topic := Registration.TopicName(location);
      var (s1, r1) := Registration.Register(s, RegistrationRequest(contact, location), None);
      var (s2, r2) := Unsubscription.Unsubscribe(s1, UnsubscribeRequest(contact), false);
      && (r1.statusCode == 200 <==> topic in s.topics)
      && r2.statusCode == 200 && contact !in s2.users
      && (topic in s.topics ==>
            topic in s2.topics
            && Subscription(if '@' in contact then "email" else "sms", contact) in s2.topics[topic])
  {
    var topic := Registration.TopicName(location);
    if topic in s.topics {
      var sub := Subscription(Registration.Protocol(ContactTypeOf(contact)), contact);
      Registration.SubscribedKeeps(s.topics[topic], sub);
    }
  }

  /**
   * "florida" is such a location: the registration subscribes the contact
   * to "florida-topic", which is not the topic of either tracked location,
   * so the contact never hears from the analyser, while unsubscribing looks
   * in "Florida-topic". The location is a parameter pinned by `requires`
   * rather than a literal in the body, which keeps the proof cheap.
   */
  lemma LowerCaseFloridaMisrouted(location: string)
    requires location == "florida"
    ensures Registration.TopicName(location) == "florida-topic"
    ensures Unsubscription.LocationTopic(Lower(location)) == Some("Florida-topic")
    ensures forall k :: 0 <= k < |BulletinAnalyzer.TrackedLocations| ==>
      BulletinAnalyzer.TrackedLocations[k].topic != Registration.TopicName(location)
  {
    LowerCaseSpellings(location);
    LowerCaseTopicUntracked(Registration.TopicName(location));
  }

  /** A lower-case name without spaces is its own lower case, and its topic is the name and "-topic". */
  lemma LowerCaseSpellings(name: string)
    requires ' ' !in name
    requires forall k :: 0 <= k < |name| ==> LowerChar(name[k]) == name[k]
    ensures Registration.TopicName(name) == name + "-topic"
    ensures Lower(name) == name
  {
    Registration.TopicNameOfSpaceless(name);
    LowerLiteral(name, name);
  }

  /** Both tracked topics begin with a capital letter, so a topic that begins with 'f' is neither. */
  lemma LowerCaseTopicUntracked(topic: string)
    requires topic != [] && topic[0] == 'f'
    ensures forall k :: 0 <= k < |BulletinAnalyzer.TrackedLocations| ==>
      BulletinAnalyzer.TrackedLocations[k].topic != topic
  {
    forall k | 0 <= k < |BulletinAnalyzer.TrackedLocations|
      ensures BulletinAnalyzer.TrackedLocations[k].topic != topic
    {
      assert BulletinAnalyzer.TrackedLocations[k].topic[0] != 'f';
    }
  }
}

=== FILE: Subscribers.dfy ===
/**
 * What the two subscriber handlers share: the users table, the notification
 * topics with their subscriptions, the contact classification and the
 * status-and-message responses.
 *
 * The table and the notification service are held as values here; the
 * identity lookup and the ARN built from it are left out, so a topic is
 * known by its name.
 */
module Subscribers {
  /** `contact_type`: 'email' or 'phone'. */
  datatype ContactType = Email | Phone

  /** `'email' if '@' in contact else 'phone'`. */
  function ContactTypeOf(contact: string): ContactType {
    if '@' in contact then Email else Phone
  }

  /** An item of the users table, keyed by its contact. */
  datatype User = User(contact: string, location: string, contactType: ContactType)

  /** A subscription of a topic: its protocol ('email' or 'sms') and endpoint. */
  datatype Subscription = Subscription(protocol: string, endpoint: string)

  /**
   * The state both handlers work on: the users table, and for each topic
   * name the list of its subscriptions in the order the service lists them.
   */
  datatype Store = Store(users: map<string, User>, topics: map<string, seq<Subscription>>)

  /** The status code and the message of `create_response`. */
  datatype Response = Response(statusCode: int, message: string)

  /**
   * A request body as `json.loads` sees it: an object whose fields are
   * strings, or text that is not JSON (JSONDecodeError).
   */
  datatype Json = Object(fields: map<string, string>) | Malformed

  const InvalidJsonMessage: string := "Invalid JSON in request body"
}

=== FILE: Text.dfy ===
/**
 * The operations on Python `str` values that the lambdas rely on: substring
 * search (`in`, `index`), `split`, `join`, `strip`, `lower`, `replace` of one
 * character, the digit filter and the decimal rendering of an `int` in an
 * f-string. Characters are ASCII: `lower` and `isdigit` only know the ASCII
 * letters and digits, and `strip` only the ASCII whitespace.
 */
module Text {
  import opened Wrappers

  // ---------------------------------------------------------------------
  // Substring search
  // ---------------------------------------------------------------------

  /** `pat` occurs in `s` starting at position `i`. */
  predicate OccursAt(s: string, pat: string, i: int) {
    0 <= i && i + |pat| <= |s| && s[i..i + |pat|] == pat
  }

  lemma OccursAtTail(s: string, pat: string, j: int)
    requires |s| > 0 && j >= 1
    ensures OccursAt(s, pat, j) <==> OccursAt(s[1..], pat, j - 1)
  {
    if j + |pat| <= |s| {
      assert s[1..][j - 1..j - 1 + |pat|] == s[j..j + |pat|];
    }
  }

  /** An occurrence inside a slice is an occurrence in the whole text, shifted by the slice's start. */
  lemma OccursInSlice(s: string, pat: string, from: nat, to: nat, j: int)
    requires from <= to <= |s| && OccursAt(s[from..to], pat, j)
    ensures OccursAt(s, pat, from + j)
  {
    var t := s[from..to];
    forall k | 0 <= k < |pat|
      ensures s[from + j..from + j + |pat|][k] == pat[k]
    {
      assert t[j..j + |pat|][k] == t[j + k] == s[from + j + k];
    }
  }

  /**
   * `s.index(pat)`: the first position at which `pat` occurs in `s`, or None
   * where Python raises ValueError because `pat` does not occur at all.
   */
  function IndexOf(s: string, pat: string): (r: Option<nat>)
    ensures r.Some? ==> OccursAt(s, pat, r.value)
    ensures r.Some? ==> forall j :: 0 <= j < r.value ==> !OccursAt(s, pat, j)
    ensures r.None? ==> forall j :: !OccursAt(s, pat, j)
    decreases |s|
  {
    if |pat| <= |s| && s[..|pat|] == pat then
      assert OccursAt(s, pat, 0);
      Some(0)
    else if |s| == 0 then
      None
    else
      var tail := IndexOf(s[1..], pat);
      assert !OccursAt(s, pat, 0);
      assert forall j :: 1 <= j ==> (OccursAt(s, pat, j) <==> OccursAt(s[1..], pat, j - 1)) by {
        forall j | 1 <= j { OccursAtTail(s, pat, j); }
      }
      match tail
      case None => None
      case Some(i) => Some(i + 1)
  }

  /** Python's `pat in s` on two strings: `pat` is a substring of `s`. */
  predicate Contains(s: string, pat: string) {
    IndexOf(s, pat).Some?
  }

  lemma OccursInContains(s: string, pat: string, i: int)
    requires OccursAt(s, pat, i)
    ensures Contains(s, pat)
  {
  }

  /** A substring of `t` is a substring of `t` with one more character in front. */
  lemma ContainsAfterCons(x: char, t: string, pat: string)
    requires Contains(t, pat)
    ensures Contains([x] + t, pat)
  {
    var i := IndexOf(t, pat).value;
    assert ([x] + t)[i + 1..i + 1 + |pat|] == t[i..i + |pat|];
    OccursInContains([x] + t, pat, i + 1);
  }

  /** Python's `s[start:end]` for two positions inside `s`: empty when `end` comes first. */
  function Slice(s: string, start: nat, end: nat): string
    requires start <= |s| && end <= |s|
  {
    if start <= end then s[start..end] else ""
  }

  // ---------------------------------------------------------------------
  // split and join on one separator character
  // ---------------------------------------------------------------------

  /**
   * `s.split(sep)`: the pieces of `s` between the occurrences of `sep`. There
   * is always at least one piece, the empty string for the empty text.
   */
  function Split(s: string, sep: char): (parts: seq<string>)
    ensures |parts| >= 1
  {
    if s == [] then [""]
    else
      var rest := Split(s[1..], sep);
      if s[0] == sep then [""] + rest
      else [[s[0]] + rest[0]] + rest[1..]
  }

  /** `sep.join(parts)` for a one-character separator. */
  function Join(parts: seq<string>, sep: char): string {
    if |parts| == 0 then ""
    else if |parts| == 1 then parts[0]
    else parts[0] + [sep] + Join(parts[1..], sep)
  }

  /** No piece of a split holds the separator. */
  lemma {:induction false} SplitPiecesLackSeparator(s: string, sep: char)
    ensures forall k :: 0 <= k < |Split(s, sep)| ==> sep !in Split(s, sep)[k]
  {
    if s != [] {
      SplitPiecesLackSeparator(s[1..], sep);
    }
  }

  /** Joining the pieces of a split with the same separator gives the text back. */
  lemma {:induction false} JoinSplit(s: string, sep: char)
    ensures Join(Split(s, sep), sep) == s
  {
    if s != [] {
      var rest := Split(s[1..], sep);
      JoinSplit(s[1..], sep);
      if s[0] == sep {
        assert ([""] + rest)[1..] == rest;
      } else {
        var parts := [[s[0]] + rest[0]] + rest[1..];
        if |rest| > 1 {
          assert parts[1..] == rest[1..];
        }
      }
    }
  }

  lemma {:induction false} SplitWithoutSeparator(p: string, sep: char)
    requires sep !in p
    ensures Split(p, sep) == [p]
  {
    if p != [] {
      SplitWithoutSeparator(p[1..], sep);
      assert [p[0]] + p[1..] == p;
    }
  }

  lemma {:induction false} SplitAfterPiece(p: string, t: string, sep: char)
    requires sep !in p
    ensures Split(p + [sep] + t, sep) == [p] + Split(t, sep)
  {
    var s := p + [sep] + t;
    if p == [] {
      assert s[1..] == t;
    } else {
      assert s[1..] == p[1..] + [sep] + t;
      SplitAfterPiece(p[1..], t, sep);
      assert [p[0]] + p[1..] == p;
    }
  }

  /**
   * Splitting a join gives the parts back, provided that no part holds the
   * separator: together with JoinSplit, split and join are inverse.
   */
  lemma {:induction false} SplitJoin(parts: seq<string>, sep: char)
    requires |parts| >= 1
    requires forall k :: 0 <= k < |parts| ==> sep !in parts[k]
    ensures Split(Join(parts, sep), sep) == parts
  {
    if |parts| == 1 {
      SplitWithoutSeparator(parts[0], sep);
    } else {
      SplitJoin(parts[1..], sep);
      SplitAfterPiece(parts[0], Join(parts[1..], sep), sep);
      assert [parts[0]] + parts[1..] == parts;
    }
  }

  /** A prefix of `t` free of the separator is a prefix of the first piece of `t`. */
  lemma {:induction false} PrefixOfFirstPiece(t: string, p: string, sep: char)
    requires |p| <= |t| && t[..|p|] == p
    requires sep !in p
    ensures |p| <= |Split(t, sep)[0]| && Split(t, sep)[0][..|p|] == p
  {
    if p != [] {
      assert t[0] == p[0];
      assert t[1..][..|p| - 1] == p[1..];
      PrefixOfFirstPiece(t[1..], p[1..], sep);
    }
  }

  /** A word without the separator at the start of a text lies inside its first piece. */
  lemma ContainedInFirstPiece(s: string, sep: char, w: string)
    requires w != [] && OccursAt(s, w, 0)
    requires sep !in w
    ensures Contains(Split(s, sep)[0], w)
  {
    var rest := Split(s[1..], sep);
    assert s[0] == w[0];
    assert s[1..][..|w| - 1] == w[1..];
    PrefixOfFirstPiece(s[1..], w[1..], sep);
    assert Split(s, sep)[0] == [s[0]] + rest[0];
    assert Split(s, sep)[0][..|w|] == w;
    OccursInContains(Split(s, sep)[0], w, 0);
  }

  /** A word inside a piece of the split of a text's tail is inside a piece of the split of the text. */
  lemma ContainedInLaterPiece(s: string, sep: char, w: string, k: nat)
    requires |s| > 0 && k < |Split(s[1..], sep)| && Contains(Split(s[1..], sep)[k], w)
    ensures exists k' :: 0 <= k' < |Split(s, sep)| && Contains(Split(s, sep)[k'], w)
  {
    var parts := Split(s, sep);
    var rest := Split(s[1..], sep);
    if s[0] == sep {
      assert parts[k + 1] == rest[k];
    } else if k == 0 {
      ContainsAfterCons(s[0], rest[0], w);
      assert parts[0] == [s[0]] + rest[0];
    } else {
      assert parts[k] == rest[k];
    }
  }

  /**
   * A word without the separator that occurs in a text occurs inside one of
   * the pieces of its split: the occurrence is never cut in two.
   */
  lemma {:induction false} ContainedInSomePiece(s: string, sep: char, w: string)
    requires Contains(s, w)
    requires sep !in w
    ensures exists k :: 0 <= k < |Split(s, sep)| && Contains(Split(s, sep)[k], w)
    decreases |s|
  {
    var parts := Split(s, sep);
    if w == [] {
      assert OccursAt(parts[0], w, 0);
      OccursInContains(parts[0], w, 0);
    } else {
      var i := IndexOf(s, w).value;
      var rest := Split(s[1..], sep);
      if i == 0 {
        ContainedInFirstPiece(s, sep, w);
      } else {
        OccursAtTail(s, w, i);
        OccursInContains(s[1..], w, i - 1);
        ContainedInSomePiece(s[1..], sep, w);
        var k :| 0 <= k < |rest| && Contains(rest[k], w);
        ContainedInLaterPiece(s, sep, w, k);
      }
    }
  }

  // ---------------------------------------------------------------------
  // strip, lower, replace, the digit filter
  // ---------------------------------------------------------------------

  /** What `str.isspace` accepts among the ASCII characters: tab to carriage return, 0x1C to 0x1F and space. */
  predicate IsSpace(c: char) {
    9 <= c as int <= 13 || 28 <= c as int <= 32
  }

  /** `s.lstrip()`: the suffix of `s` left after removing the leading whitespace. */
  function TrimStart(s: string): (r: string)
    ensures |r| <= |s| && r == s[|s| - |r|..]
    ensures r != [] ==> !IsSpace(r[0])
    ensures forall k :: 0 <= k < |s| - |r| ==> IsSpace(s[k])
  {
    if s != [] && IsSpace(s[0]) then TrimStart(s[1..]) else s
  }

  /** `s.rstrip()`: the prefix of `s` left after removing the trailing whitespace. */
  function TrimEnd(s: string): (r: string)
    ensures |r| <= |s| && r == s[..|r|]
    ensures r != [] ==> !IsSpace(r[|r| - 1])
    ensures forall k :: |r| <= k < |s| ==> IsSpace(s[k])
  {
    if s != [] && IsSpace(s[|s| - 1]) then TrimEnd(s[..|s| - 1]) else s
  }

  /** `s.strip()`. */
  function Strip(s: string): string {
    TrimEnd(TrimStart(s))
  }

  /** Stripping only removes characters, so a character the text lacks is still absent. */
  lemma StripKeepsAbsent(s: string, c: char)
    requires c !in s
    ensures c !in Strip(s)
  {
    var t := TrimStart(s);
    SliceKeepsAbsent(s, c, |s| - |t|, |s|);
    SliceKeepsAbsent(t, c, 0, |TrimEnd(t)|);
  }

  /** A slice of a text holds no character the text lacks. */
  lemma SliceKeepsAbsent(s: string, c: char, i: nat, j: nat)
    requires c !in s && i <= j <= |s|
    ensures c !in s[i..j]
  {
    forall k | 0 <= k < j - i
      ensures s[i..j][k] != c
    {
      assert s[i..j][k] == s[i + k];
    }
  }

  function LowerChar(c: char): char {
    if 'A' <= c <= 'Z' then (c as int + 32) as char else c
  }

  /** `s.lower()` on ASCII text. */
  function Lower(s: string): string {
    if s == [] then [] else [LowerChar(s[0])] + Lower(s[1..])
  }

  /** Lower-casing keeps the length and works character by character. */
  lemma {:induction false} LowerAt(s: string, k: nat)
    requires k < |s|
    ensures |Lower(s)| == |s| && Lower(s)[k] == LowerChar(s[k])
  {
    if k > 0 {
      LowerAt(s[1..], k - 1);
    } else if |s| > 1 {
      LowerAt(s[1..], 0);
    }
  }

  /** `s.replace(c, '')` for one character `c`. */
  function Without(s: string, c: char): (r: string)
    ensures c !in r
    ensures |r| <= |s|
  {
    if s == [] then []
    else (if s[0] == c then [] else [s[0]]) + Without(s[1..], c)
  }

  /** Removing `c` from a text that does not hold it changes nothing. */
  lemma {:induction false} WithoutAbsent(s: string, c: char)
    requires c !in s
    ensures Without(s, c) == s
  {
    if s != [] {
      WithoutAbsent(s[1..], c);
      assert [s[0]] + s[1..] == s;
    }
  }

  /** Removing `c` works piece by piece. */
  lemma {:induction false} WithoutConcat(a: string, b: string, c: char)
    ensures Without(a + b, c) == Without(a, c) + Without(b, c)
  {
    if a != [] {
      assert (a + b)[1..] == a[1..] + b;
      WithoutConcat(a[1..], b, c);
    } else {
      assert a + b == b;
    }
  }

  /** What `str.isdigit` accepts among the ASCII characters. */
  predicate IsDigit(c: char) {
    '0' <= c <= '9'
  }

  /** `''.join(filter(str.isdigit, s))`: the digits of `s`, in order. */
  function DigitsOnly(s: string): (r: string)
    ensures forall k :: 0 <= k < |r| ==> IsDigit(r[k])
    ensures |r| <= |s|
  {
    if s == [] then []
    else (if IsDigit(s[0]) then [s[0]] else []) + DigitsOnly(s[1..])
  }

  /** A text made only of digits is its own digit filter. */
  lemma {:induction false} DigitsOnlyOfDigits(s: string)
    requires forall k :: 0 <= k < |s| ==> IsDigit(s[k])
    ensures DigitsOnly(s) == s
  {
    if s != [] {
      DigitsOnlyOfDigits(s[1..]);
      assert [s[0]] + s[1..] == s;
    }
  }

  /** The digit filter works piece by piece. */
  lemma {:induction false} DigitsOnlyConcat(a: string, b: string)
    ensures DigitsOnly(a + b) == DigitsOnly(a) + DigitsOnly(b)
  {
    if a != [] {
      assert (a + b)[1..] == a[1..] + b;
      DigitsOnlyConcat(a[1..], b);
    } else {
      assert a + b == b;
    }
  }

  /** A character that is not a digit is dropped by the filter, wherever it stands. */
  lemma DigitsOnlyDropsNonDigit(a: string, x: char, b: string)
    requires !IsDigit(x)
    ensures DigitsOnly(a + [x] + b) == DigitsOnly(a + b)
  {
    DigitsOnlyConcat(a + [x], b);
    DigitsOnlyConcat(a, [x]);
    DigitsOnlyConcat(a, b);
    assert DigitsOnly([x]) == [];
  }

  /** A digit is kept by the filter, in its place. */
  lemma DigitsOnlyKeepsDigit(a: string, x: char, b: string)
    requires IsDigit(x)
    ensures DigitsOnly(a + [x] + b) == DigitsOnly(a) + [x] + DigitsOnly(b)
  {
    DigitsOnlyConcat(a + [x], b);
    DigitsOnlyConcat(a, [x]);
    assert DigitsOnly([x]) == [x];
  }

  // ---------------------------------------------------------------------
  // Decimal rendering of a natural number, as in f"{days}"
  // ---------------------------------------------------------------------

  function Digit(d: nat): char
    requires d < 10
  {
    ('0' as int + d) as char
  }

  /** The decimal digits of `n`, most significant first, with no leading zero. */
  function DecimalString(n: nat): (r: string)
    ensures |r| >= 1
    ensures forall k :: 0 <= k < |r| ==> IsDigit(r[k])
    ensures |r| > 1 ==> r[0] != '0'
  {
    if n < 10 then [Digit(n)] else DecimalString(n / 10) + [Digit(n % 10)]
  }

  /** The number a text of digits denotes. */
  function DecimalValue(s: string): nat
    requires forall k :: 0 <= k < |s| ==> IsDigit(s[k])
  {
    if s == [] then 0
    else
      assert IsDigit(s[|s| - 1]);
      10 * DecimalValue(s[..|s| - 1]) + (s[|s| - 1] as int - '0' as int)
  }

  /** Reading back the decimal rendering of `n` gives `n`. */
  lemma {:induction false} DecimalRoundTrip(n: nat)
    ensures DecimalValue(DecimalString(n)) == n
  {
    var r := DecimalString(n);
    if n >= 10 {
      DecimalRoundTrip(n / 10);
      assert r[..|r| - 1] == DecimalString(n / 10);
    }
  }
}

=== FILE: Unsubscription.dfy ===
/**
 * The decisions of the unsubscribe handler: the method check, the lookup of
 * the contact, the map from the stored location to a topic, the search for
 * the contact's subscription, and the deletion of the record. Whether the
 * notification service raises while listing or unsubscribing is a parameter.
 */
module Unsubscription {
  import opened Wrappers
  import opened Text
  import opened Subscribers

  /** The request: its HTTP method and its `body` entry, when there is one. */
  datatype UnsubscribeEvent = UnsubscribeEvent(httpMethod: string, body: Option<Json>)

  const UnsupportedMethodMessage: string := "Unsupported HTTP method"
  const UserNotFoundMessage: string := "User not found"
  const UnsubscribedMessage: string := "You have been successfully unsubscribed."

  /** The message of the 400 response for a missing key: `str(KeyError(key))` quotes the key. */
  function MissingFieldMessage(key: string): string {
    "Missing required field: '" + key + "'"
  }

  function UnknownLocationMessage(location: string): string {
    "Unknown location: " + location
  }

  /** The topic of a lower-cased stored location, for the two locations the handler knows. */
  function LocationTopic(location: string): Option<string> {
    if location == "puerto rico" then Some("PuertoRico-topic")
    else if location == "florida" then Some("Florida-topic")
    else None
  }

  /**
   * The test of the subscription loop: for an email contact, protocol
   * 'email' and the same endpoint; for a phone contact, protocol 'sms' and
   * the same digits in the endpoint as in the contact.
   */
  predicate Matches(sub: Subscription, contact: string, contactType: ContactType) {
    match contactType
    case Email => sub.protocol == "email" && sub.endpoint == contact
    case Phone => sub.protocol == "sms" && DigitsOnly(sub.endpoint) == DigitsOnly(contact)
  }

  /** The index of the first subscription that matches the contact. */
  function FirstMatch(subs: seq<Subscription>, contact: string, contactType: ContactType): (r: Option<nat>)
    ensures r.Some? ==> r.value < |subs| && Matches(subs[r.value], contact, contactType)
    ensures r.Some? ==> forall j :: 0 <= j < r.value ==> !Matches(subs[j], contact, contactType)
    ensures r.None? ==> forall j :: 0 <= j < |subs| ==> !Matches(subs[j], contact, contactType)
  {
    if subs == [] then None
    else if Matches(subs[0], contact, contactType) then Some(0)
    else match FirstMatch(subs[1..], contact, contactType)
      case None => None
      case Some(k) => Some(k + 1)
  }

  /** The list without its element at `k`. */
  function RemoveAt<T>(xs: seq<T>, k: nat): seq<T>
    requires k < |xs|
  {
    xs[..k] + xs[k + 1..]
  }

  /**
   * The subscriptions after the loop: the first that matches is
   * unsubscribed, or none when none matches.
   */
  function WithoutFirstMatch(subs: seq<Subscription>, contact: string, contactType: ContactType): seq<Subscription> {
    match FirstMatch(subs, contact, contactType)
    case None => subs
    case Some(k) => RemoveAt(subs, k)
  }

  /**
   * The new store and the response of one unsubscribe request. `snsFails`
   * says that listing the topic's subscriptions or unsubscribing raises; the
   * error is logged and the handler goes on. A topic the store does not list
   * makes the listing raise in the same way.
   */
  function Unsubscribe(s: Store, event: UnsubscribeEvent, snsFails: bool): (Store, Response) {
    if event.httpMethod != "POST" then (s, Response(400, UnsupportedMethodMessage))
    else
      match event.body
      case None => (s, Response(400, MissingFieldMessage("body")))
      case Some(Malformed) => (s, Response(400, InvalidJsonMessage))
      case Some(Object(fields)) =>
        if "contact" !in fields then (s, Response(400, MissingFieldMessage("contact")))
        else
          var contact := fields["contact"];
          if contact !in s.users then (s, Response(404, UserNotFoundMessage))
          else
            var contactType := ContactTypeOf(contact);
            var location := Lower(s.users[contact].location);
            match LocationTopic(location)
            case None => (s, Response(400, UnknownLocationMessage(location)))
            case Some(topic) =>
              var topics :=
                if snsFails || topic !in s.topics then s.topics
                else s.topics[topic := WithoutFirstMatch(s.topics[topic], contact, contactType)];
              (Store(s.users - {contact}, topics), Response(200, UnsubscribedMessage))
  }

  // ---------------------------------------------------------------------
  // Properties
  // ---------------------------------------------------------------------

  /**
   * At most one subscription goes, and it is the first that matches: the
   * list is kept whole when none matches, and otherwise the list without
   * its first match, one shorter, with the same subscriptions less that one.
   */
  lemma WithoutFirstMatchRemovesOne(subs: seq<Subscription>, contact: string, contactType: ContactType)
    ensures var rest := WithoutFirstMatch(subs, contact, contactType);
      && ((forall j :: 0 <= j < |subs| ==> !Matches(subs[j], contact, contactType)) ==> rest == subs)
      && ((exists j :: 0 <= j < |subs| && Matches(subs[j], contact, contactType)) ==>
            exists k ::
              && 0 <= k < |subs|
              && Matches(subs[k], contact, contactType)
              && (forall j :: 0 <= j < k ==> !Matches(subs[j], contact, contactType))
              && rest == subs[..k] + subs[k + 1..]
              && |rest| == |subs| - 1
              && multiset(rest) + multiset{subs[k]} == multiset(subs))
  {
    var r := FirstMatch(subs, contact, contactType);
    if r.Some? {
      var k := r.value;
      assert subs == subs[..k] + [subs[k]] + subs[k + 1..];
    }
  }

  /** A request that is not a POST is answered 400 and nothing changes. */
  lemma UnsubscribeNotPost(s: Store, event: UnsubscribeEvent, snsFails: bool)
    requires event.httpMethod != "POST"
    ensures Unsubscribe(s, event, snsFails) == (s, Response(400, UnsupportedMethodMessage))
  {
  }

  /**
   * A POST without a body, with a body that does not decode or without a
   * `contact` field is answered 400 with the matching message, and nothing
   * changes.
   */
  lemma UnsubscribeBadRequest(s: Store, event: UnsubscribeEvent, snsFails: bool)
    requires event.httpMethod == "POST"
    requires event.body.None? || event.body == Some(Malformed) || "contact" !in event.body.value.fields
    ensures Unsubscribe(s, event, snsFails).0 == s
    ensures Unsubscribe(s, event, snsFails).1 == Response(400,
      if event.body.None? then MissingFieldMessage("body")
      else if event.body == Some(Malformed) then InvalidJsonMessage
      else MissingFieldMessage("contact"))
  {
  }

  /** A contact that is not in the table is answered 404: nothing is deleted or unsubscribed. */
  lemma UnsubscribeUnknownContact(s: Store, event: UnsubscribeEvent, snsFails: bool)
    requires event.httpMethod == "POST" && event.body.Some? && event.body.value.Object?
    requires "contact" in event.body.value.fields
    requires event.body.value.fields["contact"] !in s.users
    ensures Unsubscribe(s, event, snsFails) == (s, Response(404, UserNotFoundMessage))
  {
  }

  /**
   * The stored location is matched without regard to case: a stored
   * location whose lower-case form is neither "puerto rico" nor "florida" is
   * answered 400 and the record is kept.
   */
  lemma UnsubscribeUnknownLocation(s: Store, event: UnsubscribeEvent, snsFails: bool)
    requires event.httpMethod == "POST" && event.body.Some? && event.body.value.Object?
    requires "contact" in event.body.value.fields
    requires event.body.value.fields["contact"] in s.users
    requires var location := Lower(s.users[event.body.value.fields["contact"]].location);
      location != "puerto rico" && location != "florida"
    ensures var location := Lower(s.users[event.body.value.fields["contact"]].location);
      Unsubscribe(s, event, snsFails) == (s, Response(400, UnknownLocationMessage(location)))
  {
  }

  /**
   * A known contact with a known location is answered 200 and its record is
   * deleted, every other record kept. Only the location's topic changes:
   * when the service raises, or does not list the topic, no subscription
   * goes; otherwise the topic loses exactly its first subscription that
   * matches the contact.
   */
  lemma UnsubscribeKnownContact(s: Store, event: UnsubscribeEvent, snsFails: bool)
    requires event.httpMethod == "POST" && event.body.Some? && event.body.value.Object?
    requires "contact" in event.body.value.fields
    requires event.body.value.fields["contact"] in s.users
    requires LocationTopic(Lower(s.users[event.body.value.fields["contact"]].location)).Some?
    ensures var contact := event.body.value.fields["contact"];
      var topic := LocationTopic(Lower(s.users[contact].location)).value;
      var (s', r) := Unsubscribe(s, event, snsFails);
      && r == Response(200, UnsubscribedMessage)
      && contact !in s'.users
      && (forall c :: c in s.users && c != contact ==> c in s'.users && s'.users[c] == s.users[c])
      && s'.users.Keys == s.users.Keys - {contact}
      && s'.topics.Keys == s.topics.Keys
      && (forall t :: t in s.topics && t != topic ==> s'.topics[t] == s.topics[t])
      && (snsFails || topic !in s.topics ==> s'.topics == s.topics)
      && (!snsFails && topic in s.topics ==>
            s'.topics[topic] == WithoutFirstMatch(s.topics[topic], contact, ContactTypeOf(contact)))
  {
  }

  /**
   * Only a 200 changes anything, and after a 200 the contact is gone, so
   * the same request made again is answered 404.
   */
  lemma UnsubscribeTwice(s: Store, event: UnsubscribeEvent, snsFails: bool, secondFails: bool)
    ensures var (s', r) := Unsubscribe(s, event, snsFails);
      && (r.statusCode != 200 ==> s' == s)
      && (r.statusCode == 200 ==> Unsubscribe(s', event, secondFails) == (s', Response(404, UserNotFoundMessage)))
  {
  }

  /**
   * A phone contact is matched on its digits alone: a non-digit character in
   * the subscription's endpoint, such as a '+', a space or a '-', does not
   * change whether it matches.
   */
  lemma PhoneMatchIgnoresNonDigit(a: string, x: char, b: string, contact: string)
    requires !IsDigit(x)
    ensures Matches(Subscription("sms", a + [x] + b), contact, Phone) <==>
      Matches(Subscription("sms", a + b), contact, Phone)
  {
    DigitsOnlyDropsNonDigit(a, x, b);
  }

  /** The subscription a registration asks for matches the contact it was made for. */
  lemma OwnSubscriptionMatches(contact: string)
    ensures Matches(Subscription(if '@' in contact then "email" else "sms", contact), contact, ContactTypeOf(contact))
  {
  }
}

=== FILE: Wrappers.dfy ===
/** Optional values and results shared by the modules of the model. */
module Wrappers {

  /** Python's `None` or a value. */
  datatype Option<+T> = None | Some(value: T)

  /** A value or the error that stopped its computation. */
  datatype Result<+R, +E> = Success(value: R) | Failure(error: E)
}
